=== FILE: README.md ===
# aa-data-handler: save and load, modelled in Dafny

The data handler saves a pandas `DataFrame` or `Series`, a dictionary of them, or a
matplotlib `Figure` to a directory, in a format picked by a string. It loads such files
back, either from an explicit path or by looking up a log of earlier saves. The
repository has two generations of this code:

- the packaged pair `src/aa_data_handler/save.py` and `src/aa_data_handler/load.py`. Here
  `save` can prefix the file name with a timestamp and appends an `id,timestamp,path`
  line to `file_log.log`. `load` resolves a file by full path, by a name pattern and
  format, or by log id.
- the older pair `src/save.py` and `src/load.py`. This `save` writes `dir/name.ext` and
  logs nothing. This `load` rebuilds that path from a name, format and directory, and
  consults the log only to fill in missing parts or to resolve an id.

The model keeps the decision logic and drops the libraries. A payload is one of five
shapes: table, series, mapping, figure, or anything else. The file system is a set of
directories, a map from paths to file contents, and the text of the log. The log is
absent while `file_log.log` does not exist; importing the packaged `save` module creates
it empty, so a packaged `save` always finds it present. Every save returns the world it leaves behind together with its
outcome, because Python keeps whatever was written before an exception. Every load
returns a `Result` whose error names the Python exception raised.

Modules, one file each:

- `results.dfy` (`Results`): the error kinds, `Option`, `Result`, `Outcome`, and Python
  truthiness of an optional string.
- `text.dfy` (`Text`): `str.strip`, `str.split` on one character, iteration over the
  lines of a text file, and `in` on strings.
- `paths.dfy` (`Paths`): pathlib's `/`, `.name`, `.parent`, `.suffix`, `.stem`, and the
  directories `mkdir(parents=True)` creates.
- `payloads.dfy` (`Payloads`): payload shapes, file contents, and the world.
- `file_log.dfy` (`FileLog`): the log record, appending it, and parsing the log back.
- `writers.dfy` (`Writers`): the `_save_*` helpers and the shape dispatch. These are
  identical in both `save.py` files.
- `save.dfy` (`Save`) and `legacy_save.dfy` (`LegacySave`): the two `save` functions.
- `readers.dfy` (`Readers`): format dispatch when reading, and the `_load_excel` collapse.
- `load.dfy` (`Load`) and `legacy_load.dfy` (`LegacyLoad`): the two `load` functions.
- `consistency.dfy` (`Consistency`): round trips between savers and loaders, and where
  they disagree.

Inputs that are not logic are parameters:

- the formatted time and the UUID text in `save`;
- Python's `re` in the packaged `load`, as a `Regex` value saying which patterns compile
  and which texts they find a match in;
- `Path.glob` in the older `load`, as a function from a directory and a pattern to the
  paths it yields.

## Model

| member | source | states |
|---|---|---|
| Writers.Extension | src/aa_data_handler/save.py:38 | The extension is `p` exactly for the formats `pickle` and `p`, and differs from the format only for `pickle`. |
| Writers.ExtensionCollision | src/save.py:29 | Two different formats end up with the same extension only when they are `pickle` and `p`. |
| Save.FullPath | src/aa_data_handler/save.py:41 | The path starts with the directory and a separator and ends with a dot and the extension. Its length is that of the directory, the file name and the extension plus two, and between the separator and the dot lies the file name: the path is `dir/filename.ext`. |
| Save.EntryOf | src/aa_data_handler/save.py:39-44 | The logged entry carries this call's id and time. With a timestamp, its file name starts with that same time and an underscore. |
| FileLog.RecordLayout | src/aa_data_handler/save.py:44 | The record is the id, a comma, the time, a comma, and the path, at those positions and nothing else. |
| Save.FileName | src/aa_data_handler/save.py:39-40 | With a timestamp, the file name is the timestamp, `_`, then the name. Without one, it is the name unchanged. |
| Save.Save | src/aa_data_handler/save.py:36-56 | Whatever the outcome, the directory exists afterwards and the log has grown by exactly this call's record. |
| Save.MissingSubdirectoryRaises | src/aa_data_handler/save.py:37-60 | A csv frame whose file would go into a directory that `mkdir` did not create raises pandas' `OSError`, writes no file, and has still logged its line. |
| Save.NameWithSeparatorRaises | src/aa_data_handler/save.py:37-60 | A csv frame saved under the name `sub/x` in a fresh directory `out` raises `OSError`, writes no file, and still leaves the log line. |
| Save.RejectedSaveStillLogs | src/aa_data_handler/save.py:44-56 | A shape/format pair the table rejects still logs its line and creates the directory. It raises the table's error (`TypeError` or `ValueError`) and writes no file. |
| Save.SaveAppendsOneEntry | src/aa_data_handler/save.py:39-44 | Read back after any call, raising or not, the log holds the old entries and then one new entry. That entry carries the same timestamp as the file name. |
| Save.LoggedPathParts | src/aa_data_handler/save.py:39-41 | The logged path has the save directory as parent, the (timestamped) file name as stem, and the extension as suffix. |
| Consistency.AfterSave | src/aa_data_handler/save.py:39-44 | After a save on a readable log, the log stays readable: the old entries plus the new one. The new entry's format is the extension, not the requested format. |
| Writers.Dispatch | src/aa_data_handler/save.py:47-56 | Any payload other than a table, series, mapping or figure raises `TypeError` and changes nothing. No helper touches the directories or the log. |
| Writers.Verdict | src/aa_data_handler/save.py:47-104 | The table accepts exactly a table or series with csv, xlsx or pickle, a mapping whose values are all storable, and a figure with png or svg. A rejected object of an unknown type raises `TypeError`; every other rejection raises `ValueError`. |
| Writers.DispatchFollowsVerdict | src/aa_data_handler/save.py:47-56 | The acceptance table decides the outcome. A rejected pair raises the table's error and leaves the world unchanged. An accepted pair whose target cannot be opened raises the error of whoever opens it (pandas or `open`) and leaves the world unchanged. A frame, series or figure whose target opens is written there, returns, and changes nothing else. A mapping whose target opens is covered by `Consistency.AcceptedMappingFailsNested`. |
| Writers.DispatchLogFree | src/aa_data_handler/save.py:47-56 | Dispatch neither reads nor writes the log: with any other log text, it does the same and keeps that text. |
| Writers.SaveFrame | src/aa_data_handler/save.py:58-67 | A table is accepted for exactly csv, xlsx and pickle, and anything else raises `ValueError` before any write. csv holds the cells without the index, xlsx holds one sheet of them, and pickle holds the table itself. csv and xlsx are opened by pandas, pickle by `open`, with their error kinds. |
| Writers.SaveSeries | src/aa_data_handler/save.py:71-80 | The same acceptance as for a table. csv and xlsx hold the series as a one-column table without the index, and pickle holds the series itself. csv and xlsx are opened by pandas, pickle by `open`. |
| Payloads.ToFrame | src/aa_data_handler/save.py:75 | A series becomes a single-column table named after the series, with the same index. |
| Writers.SaveFigure | src/aa_data_handler/save.py:100-104 | A figure is accepted for exactly png and svg and stored in that format. Anything else raises `ValueError` and writes nothing. |
| Writers.SaveDict | src/aa_data_handler/save.py:84-96 | A mapping with a value other than a table, series or mapping raises `ValueError` before anything is written. A valid mapping whose target pandas cannot open raises pandas' error and changes nothing. One whose target opens always leaves a workbook there. Directories and log are untouched. |
| Writers.MappingIgnoresFormat | src/aa_data_handler/save.py:51-52 | Saving a mapping, and its verdict, do not depend on the requested format. |
| Writers.SaveDictResult | src/aa_data_handler/save.py:84-96 | The workbook at the target holds a prefix of the sheets of the table and series values, in order. On success it holds all of them, and every nested mapping has its own workbook. |
| Writers.WriteSheets | src/aa_data_handler/save.py:86-94 | The loop over a mapping leaves directories and log alone. It yields at most one sheet per item. |
| Writers.WriteSheetsSheets | src/aa_data_handler/save.py:86-91 | The sheets written are always a prefix of the full sheet list. They are all of it when no nested mapping failed. |
| Writers.SheetsOfMembers | src/aa_data_handler/save.py:87-91 | A sheet is in the outer workbook exactly when some table or series item becomes it under its key. |
| Writers.NestedPathParts | src/aa_data_handler/save.py:93 | A key without a separator names a workbook beside the outer file, whose name is the key plus `.xlsx`. A non-empty key is its stem and `xlsx` its format. |
| Writers.SheetsOf | src/aa_data_handler/save.py:87-91 | A mapping yields at most one sheet per item. |
| Writers.SheetsOfAll | src/aa_data_handler/save.py:87-91 | Every item becomes a sheet exactly when no value is a nested mapping or an unwritten shape. |
| Writers.WriteSheetsNested | src/aa_data_handler/save.py:92-94 | On success, the nested mapping under key `k` has been written to `parent/k.xlsx`. |
| Writers.SaveDictWrites | src/aa_data_handler/save.py:84-96 | Saving a mapping changes only files among its target and the nested workbooks, recursively. Every file it changes is a workbook, and no file disappears. |
| Writers.WriteSheetsWrites | src/aa_data_handler/save.py:86-94 | The loop changes only nested workbook targets, always to workbooks, and removes nothing. |
| Payloads.MakeDirs | src/aa_data_handler/save.py:37 | The directory exists afterwards. No directory, file or log text is lost. |
| Paths.Ancestors | src/aa_data_handler/save.py:37 | The directories `mkdir(parents=True)` creates include the path itself, and every one is a prefix of it. |
| Payloads.Writable | src/aa_data_handler/save.py:64 | Opening with `open` for writing succeeds exactly when no directory above the path is a regular file, the path is not a directory, and its parent is one. Then the path is not among its own ancestors. |
| Payloads.PandasWritable | src/aa_data_handler/save.py:60-62 | A pandas writer opens a target exactly when `open` would. A parent that is missing, is a regular file or lies below one raises `OSError`. Only a target that is itself a directory, under a real parent directory, raises `IsADirectoryError`. |
| Payloads.Opens | src/aa_data_handler/save.py:59-65 | Whichever opener is used, the target opens exactly when `open` would open it. |
| Writers.WriteFile | src/aa_data_handler/save.py:59-65 | The outcome is the opener's. A successful open stores the content at the target and changes nothing else; a failed one changes nothing. |
| Paths.JoinParts | src/aa_data_handler/save.py:41 | Joining a directory and a separator-free file name gives back that name and that directory. |
| Paths.StemAndFormat | src/aa_data_handler/load.py:88 | The path of `stem.ext` in a directory has stem `stem`, format `ext` and parent `dir`. |
| Paths.StemSuffix | src/aa_data_handler/load.py:88 | Stem plus suffix is the final component. A non-empty suffix is a dot followed by the format. |
| Paths.Suffix | src/aa_data_handler/load.py:88 | The suffix holds no separator. It is empty, or a dot followed by at least one character and no other dot. |
| Paths.Stem | src/aa_data_handler/load.py:53 | The stem holds no separator, starts the final component, and is non-empty when that component is. |
| Paths.FormatOf | src/aa_data_handler/load.py:88 | The format of a path contains neither a dot nor a separator. |
| Paths.SuffixDot | src/aa_data_handler/load.py:88 | The suffix starts at the last dot, which is neither the first nor the last character of the name. |
| Paths.Name | src/aa_data_handler/load.py:53 | The final component is a separator-free tail of the path. |
| Paths.Parent | src/load.py:112 | The parent is never empty. Below a non-root directory, the parent, a separator and the name give the path back. |
| FileLog.Append | src/aa_data_handler/save.py:44 | The log afterwards ends in a line terminator and starts with the old log. |
| FileLog.AppendThenRead | src/aa_data_handler/save.py:44 | Appending a clean entry to a log that ends at a line boundary makes it read as the old entries plus that entry. A log that was unreadable stays unreadable. |
| FileLog.ParseLine | src/aa_data_handler/load.py:86 | A line that does not unpack into three fields raises `ValueError`. |
| FileLog.ParseLineSpec | src/aa_data_handler/load.py:86 | A line parses exactly when its stripped text splits into three fields. The stripped line is then the record of its entry, and no field holds a comma. |
| FileLog.ParseRecord | src/aa_data_handler/load.py:86 | Parsing the record `save` writes gives back the entry, provided no field holds a comma or line break and the record has no edge white space. |
| FileLog.CommaBreaksRecord | src/aa_data_handler/load.py:86 | A record whose path contains a comma does not parse. |
| FileLog.ParseLines | src/aa_data_handler/load.py:82-95 | Parsing the log yields one entry per line, or `ValueError`. |
| FileLog.ParseLinesSpec | src/aa_data_handler/load.py:82-95 | The log reads as entries exactly when every line parses. Entry `i` is then line `i` parsed, so file order is kept. |
| FileLog.ParseLinesSnoc | src/aa_data_handler/load.py:85-94 | One more line extends the entries by that line's entry, or makes the read fail. |
| FileLog.ReadLogEntries | src/aa_data_handler/load.py:82-95 | A missing log raises `FileNotFoundError`. Otherwise the result is its lines parsed. |
| Text.Strip | src/aa_data_handler/load.py:86 | `strip` leaves no white space at either edge, never lengthens the text, and leaves a trimmed text alone. |
| Text.StripLeftSpace | src/aa_data_handler/load.py:86 | `lstrip` removes white space only. |
| Text.StripRightSpace | src/aa_data_handler/load.py:86 | `rstrip` removes white space only. |
| Text.Split | src/aa_data_handler/load.py:86 | A split never yields an empty list. |
| Text.SplitCount | src/aa_data_handler/load.py:86 | A split has one more field than the text has separators. |
| Text.SplitFields | src/aa_data_handler/load.py:86 | No field of a split holds the separator. |
| Text.SplitThenJoin | src/aa_data_handler/load.py:86 | Joining the fields of a split with the separator gives the text back. |
| Text.SplitJoin | src/aa_data_handler/load.py:86 | Splitting undoes joining when no field holds the separator. |
| Text.Lines | src/aa_data_handler/load.py:85 | A text has lines exactly when it is non-empty, and never more lines than characters. |
| Text.LinesUnlines | src/aa_data_handler/load.py:85 | A file written line by line, each line terminated, iterates as those lines. |
| Text.LinesConcat | src/aa_data_handler/load.py:85 | The lines of two texts joined at a line boundary are the lines of the first, then those of the second. |
| Text.LinesAppend | src/aa_data_handler/load.py:85 | Appending one terminated line to a text that ends at a line boundary adds exactly that line. |
| Load.Load | src/aa_data_handler/load.py:32-41 | The log is read before any branch, so a missing or malformed log fails every call, even with an explicit path. Otherwise the branches decide. |
| Load.LoadFromEntries | src/aa_data_handler/load.py:34-41 | With no full path, name, format or log id, the call raises `ValueError`. |
| Load.Priority | src/aa_data_handler/load.py:34-41 | A full path decides alone, whatever else is passed. Failing that, a name or format decides and the log id is ignored. |
| Load.LoadFromFullPath | src/aa_data_handler/load.py:43-47 | A path that does not exist raises `FileNotFoundError`. An existing one is loaded by its suffix. |
| Load.Matches | src/aa_data_handler/load.py:52-54 | With neither a name nor a format, every entry matches. When a format is given, an entry matches only if its path has that format. |
| Load.PickByNameAndFormat | src/aa_data_handler/load.py:49-59 | An uncompilable name raises the pattern error. Otherwise the pick is the last entry whose stem matches the pattern (if given) and whose format equals the requested one (if given). No pick means no entry matches. |
| Load.LoadFromNameAndFormat | src/aa_data_handler/load.py:49-59 | An uncompilable name pattern raises `re.error`. When no entry matches, the call raises `FileNotFoundError`. Otherwise it loads the file of the entry the pick chose, which is the last matching one. |
| Load.NewestByNameAndFormat | src/aa_data_handler/load.py:49-59 | When the newest entry matches the name and format, loading by them loads that entry's file. |
| Load.LoadFromLogId | src/aa_data_handler/load.py:61-65 | An id no entry carries raises `FileNotFoundError`. Otherwise the file of the last entry carrying the id is loaded, wherever that entry sits in the log. |
| Load.NewestById | src/aa_data_handler/load.py:61-65 | Loading by an id loads the newest entry with that id, whatever came before. |
| FileLog.FirstWhere | src/load.py:105-113 | A forward scan finds the first entry that qualifies, and none exactly when no entry does. |
| FileLog.LastWhere | src/aa_data_handler/load.py:62-64 | A backward scan finds the last entry that qualifies, and none exactly when no entry does. |
| FileLog.LastWhereNewest | src/aa_data_handler/load.py:62-64 | A qualifying entry appended last is the one the backward scan finds. |
| Load.LoadFile | src/aa_data_handler/load.py:67-80 | The file is dispatched by its own suffix. An unsupported suffix raises `ValueError`. |
| Load.PickleSuffixRefused | src/aa_data_handler/load.py:67-80 | An existing file with the suffix `p` is refused with `ValueError`. |
| Readers.ReadAs | src/aa_data_handler/load.py:72-80 | An unsupported format raises `ValueError` before anything is opened. Otherwise the error of opening comes through, and a result comes from an existing file in a supported format. |
| Readers.ReadWritten | src/aa_data_handler/load.py:72-78 | Reading back, in the same format, what the table or series writer just wrote gives the restored object: the cells under a fresh index for csv and xlsx, the object itself for pickle. |
| Payloads.Read | src/aa_data_handler/load.py:77 | Opening succeeds exactly for an existing file that is not a directory and has no regular file above it, and yields its contents. A path below a regular file raises `NotADirectoryError`, and any other missing path `FileNotFoundError`. |
| Payloads.Exists | src/aa_data_handler/load.py:44 | A path that does not exist cannot be opened. One that exists, with no regular file above it, never fails to open with `FileNotFoundError`. |
| Readers.LoadExcel | src/aa_data_handler/load.py:97-102 | A workbook collapses to a table exactly when it has one sheet. Otherwise it is a mapping with one item per sheet. |
| Readers.SheetItems | src/aa_data_handler/load.py:98 | The sheet-name to table mapping has one item per sheet, in order, named after the sheet. |
| Readers.SheetItemsBack | src/aa_data_handler/load.py:97-102 | A workbook of default-index sheets read as a mapping and written back as sheets gives the same sheets. |
| Consistency.SavedFileReads | src/aa_data_handler/save.py:58-80 | After a successful save of a table or series, the file exists at the full path. Read as the requested format, it gives the restored object. |
| Consistency.RoundTripByPath | src/aa_data_handler/load.py:43-47 | For csv and xlsx, loading the full path a save wrote gives back the restored object. |
| Consistency.RoundTripById | src/aa_data_handler/load.py:61-65 | For csv and xlsx, loading by the id of the latest save gives back its object, even when that id was logged before. |
| Consistency.RoundTripByName | src/aa_data_handler/load.py:49-59 | For csv and xlsx, loading by a name whose pattern finds the new stem, plus the format, gives back the object just saved. |
| Consistency.AcceptedMappingFailsNested | src/aa_data_handler/save.py:84-94 | An accepted mapping whose target opens fails only if some value is a nested mapping: one without nested mappings is saved and returns. |
| Consistency.FlatSheets | src/aa_data_handler/save.py:86-91 | Without nested mappings, the loop writes no file, never fails, and collects every sheet. |
| Consistency.MappingReadsBack | src/aa_data_handler/save.py:84-96 | A mapping of tables and series saved to a writable `.xlsx` path succeeds and loads back from that path as its sheets: a table when there is one sheet, otherwise the mapping from each key to its table without the index. |
| Consistency.RoundTripMapping | src/aa_data_handler/load.py:97-102 | Through the packaged `save` and `load`, a mapping of tables and series saved as xlsx loads back from its full path as its sheets. |
| Consistency.PickleNotLoadable | src/aa_data_handler/load.py:76 | As written, a pickle the packaged `save` wrote raises `ValueError` when loaded by its path or by its id. |
| Consistency.LoadFileFixed | src/aa_data_handler/load.py:67-80 | The corrected `_load_file` reads the suffix `p` as a pickle and behaves as before otherwise. |
| Consistency.FixedRoundTrip | src/aa_data_handler/load.py:67-80 | With that correction, every table or series saved as csv, xlsx or pickle reads back from its full path, and a pickle exactly. |
| Consistency.CommaPoisonsLog | src/aa_data_handler/load.py:82-95 | Once a path with a comma has been logged, every packaged `load` raises `ValueError`, whatever it asks for and whatever is logged later. |
| Consistency.PoisonedLog | src/aa_data_handler/load.py:84-86 | A log holding a record with a comma in its path does not read, whatever follows it. |
| Consistency.ParseLinesErrExtends | src/aa_data_handler/load.py:85-86 | A log that does not parse stays unparseable whatever lines follow. |
| LegacySave.Save | src/save.py:27-43 | The directory exists afterwards and the log is left exactly as it was, whatever the outcome. |
| LegacySave.FullPath | src/save.py:29-30 | The older file path is, for every time, the packaged path without a timestamp. |
| LegacySave.FullPathParts | src/save.py:29-30 | The file is `name.ext` in the directory: parent `dir`, stem `name`, format the extension. |
| LegacySave.SavedFileNames | tests/test_save.py:12-22 | Saving `data` to `out` writes `out/data.csv`, `out/data.xlsx` and `out/data.p`. |
| LegacySave.SameFilesAsPackaged | src/save.py:27-43 | Without a timestamp, the packaged `save` writes the same files with the same outcome as this one. Only its log line differs. |
| LegacyLoad.Locate | src/load.py:36-40 | Without a log id, the call goes straight to the name/format/directory settling step. With a log id and no log, it raises `FileNotFoundError`. |
| LegacyLoad.LocateById | src/load.py:36-40 | With a log id and a log whose lines all parse, the first entry carrying the id decides, found by a plain forward search. Without one the call raises `FileNotFoundError`. With one, its stem, format and parent replace the arguments; if its path has no suffix, the call goes on to the search by that stem. |
| LegacyLoad.Settle | src/load.py:39-40 | A directory and format that are both given are kept as they are. |
| LegacyLoad.SettleByName | src/load.py:39-40 | With the directory or the format missing and a log whose lines all parse, the first entry whose stem contains the name decides. Without one the call raises `FileNotFoundError`. With one, its stem, format and parent replace all three arguments. |
| LegacyLoad.InfoFromLog | src/load.py:104-114 | A missing log raises `FileNotFoundError`. |
| LegacyLoad.ScanById | src/load.py:104-114 | The scan fails with `ValueError` (a bad line) or `FileNotFoundError` (no such id). A hit gives a non-empty directory. |
| LegacyLoad.ScanByIdFirst | src/load.py:104-114 | On a readable log, the id scan resolves the first entry with the id, found by a plain forward search over the parsed entries, or raises `FileNotFoundError`. |
| LegacyLoad.ScanByIdStops | src/load.py:105-113 | Lines after the matching one, even unparseable ones, change nothing. |
| LegacyLoad.FoundAt | src/load.py:109-113 | A found entry always has a non-empty directory: a `Path` is never falsy. |
| LegacyLoad.SearchFileLog | src/load.py:62-72 | A missing log raises `FileNotFoundError`. |
| LegacyLoad.NameIn | src/load.py:67 | An empty name is in every stem, a name longer than the stem is in none, and a name that starts the stem is in it. |
| Text.Contains | src/load.py:67 | The empty string is in every string, and nothing longer than a string is in it. |
| Text.ContainsAt | src/load.py:67 | `sub in s` holds exactly when `sub` starts at some position of `s`. |
| LegacyLoad.ScanByName | src/load.py:62-72 | A hit has a name containing the searched text, and a non-empty directory. |
| LegacyLoad.ScanByNameFirst | src/load.py:62-72 | On a readable log, the name scan resolves the first entry whose stem contains the name, found by a plain forward search over the parsed entries, or raises `FileNotFoundError`. |
| LegacyLoad.MissingNameSearch | src/load.py:62-67 | With no name, the search raises `TypeError` as soon as it reaches a line that parses. |
| LegacyLoad.Load | src/load.py:36-60 | A result requires the location to resolve. A located directory that does not exist raises `FileNotFoundError`. |
| LegacyLoad.DirectoryIsAFile | src/load.py:42-53 | A directory argument that is a regular file passes the existence check, and reading the file below it raises `NotADirectoryError`. |
| LegacyLoad.MissingNameLoad | src/load.py:39-50 | A format and an existing directory without a name raise `TypeError` at the wildcard test. |
| LegacyLoad.LoadBranches | src/load.py:45-60 | Once located, a name with `*` globs for `name.format` using the format, not the extension. Any other name reads `dir/name.ext` as the format and returns one object, or raises the reader's error. |
| LegacyLoad.ReadAll | src/load.py:80 | Every matched file is read in order, and object `i` is file `i` read as the format. |
| LegacyLoad.LoadFilesByPattern | src/load.py:74-83 | No match raises `FileNotFoundError`. One match gives a single object, and several give a list of the same length. |
| LegacyLoad.LogResolvedPickleRefused | src/load.py:52-60 | A log entry for a pickle carries the format `p`, so loading it by id raises `ValueError` although the file exists. |
| Consistency.SaveLoggingOnSuccess | src/aa_data_handler/save.py:43-56 | Corrected `save`, logging after the dispatch: the same outcome, directories and files as `save`, the same world on success, and the log untouched on failure. |
| Consistency.RejectedSaveLeavesNoEntry | src/aa_data_handler/save.py:44 | With the correction, a call the table rejects leaves both the files and the log as they were. |
| Consistency.LoggedSaveWroteFile | src/aa_data_handler/save.py:44-56 | With the correction, an entry is appended exactly when the call succeeds, and its path then names an existing file. |
| Consistency.DispatchWrites | src/aa_data_handler/save.py:47-56 | A dispatch that succeeds leaves a file at its target. |
| Consistency.LegacyRoundTrip | tests/test_load.py:13-26 | `load(name, format, dir)` after `save(obj, name, format, dir)` gives back what the format keeps: the cells for csv and xlsx, the object itself for pickle. |
| Consistency.ScanDirections | src/load.py:104-114 | When two entries share an id, the older loader resolves it to the first of them (or earlier) and the packaged one to the last of them (or later). |

## Left out

- Reading and writing through pandas, pickle and matplotlib. File contents are abstract: a table written without its index reads back as the same cells under a fresh default index. Type changes a csv round trip can cause are not modelled.
- Writers.SaveDict: a valid mapping with no table or series values is stored as a workbook with no sheets. The Excel engine refuses to close such a workbook; that library error is not modelled.
- Excel's sheet-name rules (length limit, forbidden characters) are library checks and are not modelled.
- `mkdir` failing because a component of the path is an existing file is not modelled: directory creation always succeeds. Writing a file below a regular file does fail: with `OSError` from pandas, with `NotADirectoryError` from `open`.
- pathlib normalisation is not modelled: paths are taken as written, without collapsing `.` components or doubled and trailing separators. This includes `str(Path(...))` in `_read_log_entries`. `Join` always puts a separator between its parts, so it differs from pathlib's `/` for an empty directory (`Path("") / "x.csv"` is `x.csv`, where `Join` gives `/x.csv`) and for an absolute right part (`Path("out") / "/x.csv"` is `/x.csv`, where `Join` gives `out//x.csv`).
- Arguments that are `Path` objects are always truthy in Python. The model takes every argument as an optional string, so an empty string counts as not given.
- Readers.ReadAs: every error a reader raises on contents of the wrong kind becomes one `ReaderError` kind, rather than the library's own exception.
- Python 3.14 changed how pathlib treats a name ending in a dot. The model follows the earlier rule that a suffix needs a character after the dot.
- Python's `re` matching and `Path.glob` are given as parameters, not modelled.
- `datetime.now()` and `uuid.uuid4()` are given as parameters, not modelled.
- Only `'\n'` ends a line of the log. The other line terminators of universal-newline mode are not modelled.
- The action loggers (`action_logger`), `src/logger.py` and `src/main.py` only configure logging or demonstrate calls, so they are not modelled.
- The file logger gets its file handler only if it had no handler when it was set up (`src/logger.py:17`). The model assumes it had none, so every packaged `save` reaches `file_log.log`.
- Importing the packaged `save` module creates an empty `file_log.log`. Import is not a step of the model; any starting log, present or absent, is allowed.
- Concurrent writers to `file_log.log` and non-atomic appends are not modelled.

## Findings

| source | as written | input that shows it | evidently intended | confidence | as-written member | corrected member |
|---|---|---|---|---|---|---|
| src/aa_data_handler/load.py:76 | `_load_file` accepts only the suffix `pickle`, but `save` names pickled files with the extension `p` | `save(df, "data", "pickle", "out", add_timestamp=False)`, then `load(full_file_path="out/data.p")` or `load(log_id=<its id>)`: both raise `ValueError` | a file with the suffix `p` is read as a pickle, so a pickled table or series comes back unchanged | high; not executed | Consistency.PickleNotLoadable | Consistency.FixedRoundTrip |
| src/aa_data_handler/save.py:44 | `save` writes the log line before the type dispatch, so a call that raises still logs a path it never wrote | `save(42, "x", "csv", "out", add_timestamp=False)` raises `TypeError`, yet the log gains an entry for `out/x.csv` and no file is written there | an entry is logged only for a save that succeeded, so every logged path names a saved file | medium; not executed | Save.RejectedSaveStillLogs | Consistency.LoggedSaveWroteFile |

=== FILE: consistency.dfy ===
/** How the savers and the loaders fit together: which round trips hold, and where
    the two generations of the code disagree with each other or with themselves. */
module Consistency {
  import opened Results
  import opened Text
  import opened Paths
  import opened Payloads
  import opened FileLog
  import opened Writers
  import opened Readers
  import Save
  import LegacySave
  import Load
  import LegacyLoad

  /** A call of the packaged `save` whose parts survive the log and the path: a
      non-empty directory, a name and timestamp without separators, a format without
      dots, and an entry that reads back as itself. */
  predicate SaneCall(dir: string, name: string, format: string, addTimestamp: bool, timestamp: string, logId: string) {
    && |dir| > 0 && |format| > 0
    && |Save.FileName(name, addTimestamp, timestamp)| > 0
    && '/' !in name && '/' !in timestamp && '/' !in format && '.' !in format
    && Clean(Save.EntryOf(dir, name, format, addTimestamp, timestamp, logId))
  }

  /** A log that is absent, or that reads as entries and ends at a line boundary. */
  predicate SoundLog(w: World) {
    w.log.Some? ==> EndsLine(w.log.value) && ReadLogEntries(w.log).Ok?
  }

  // ---------------------------------------------------------------------------
  // The older pair: save then load by name, format and directory
  // ---------------------------------------------------------------------------

  /** `load(name, format, path)` after `save(obj, name, format, path)` gives back what
      the format keeps of the object: the table's cells for csv and xlsx, the object
      itself for pickle. */
  lemma LegacyRoundTrip(w: World, obj: Payload, name: string, format: string, dir: string,
                        glob: (string, string) -> seq<string>)
    requires obj.Table? || obj.Column?
    requires Readable(format) && |dir| > 0 && '*' !in name
    requires LegacySave.Save(w, obj, name, format, dir).outcome.Pass?
    ensures LegacyLoad.Load(LegacySave.Save(w, obj, name, format, dir).world, Some(name), Some(format), Some(dir), None, glob)
      == Ok(LegacyLoad.One(Restored(obj, format)))
  {
    ReadWritten(MakeDirs(w, dir), obj, LegacySave.FullPath(dir, name, format), format);
  }

  // ---------------------------------------------------------------------------
  // The packaged pair
  // ---------------------------------------------------------------------------

  /** The entries of a sound log: none while the file does not exist. */
  function Entries(w: World): seq<LogEntry>
    requires SoundLog(w)
  {
    if w.log.None? then [] else ReadLogEntries(w.log).value
  }

  /** After a sane packaged `save` on a sound log, the log is still sound and reads
      as the old entries followed by this call's entry, whose suffix is the extension. */
  lemma AfterSave(w: World, obj: Payload, name: string, format: string, dir: string,
                  addTimestamp: bool, timestamp: string, logId: string)
    requires SaneCall(dir, name, format, addTimestamp, timestamp, logId) && SoundLog(w)
    ensures var w2 := Save.Save(w, obj, name, format, dir, addTimestamp, timestamp, logId).world;
      var e := Save.EntryOf(dir, name, format, addTimestamp, timestamp, logId);
      && SoundLog(w2)
      && Entries(w2) == Entries(w) + [e]
      && FormatOf(e.fullPath) == Extension(format)
  {
    var e := Save.EntryOf(dir, name, format, addTimestamp, timestamp, logId);
    var log2 := Append(w.log, e);
    assert Save.Save(w, obj, name, format, dir, addTimestamp, timestamp, logId).world.log == log2;
    AppendThenRead(w.log, e);
    assert ReadLogEntries(log2) == Ok(Entries(w) + [e]) by {
      if w.log.None? {
        assert [] + [e] == [e];
      }
    }
    assert EndsLine(log2.value);
    Save.LoggedPathParts(dir, name, format, addTimestamp, timestamp);
  }

  /** What the packaged `save` leaves at the full path reads back, as the format the
      path's suffix would name if the suffix were the format itself. */
  lemma SavedFileReads(w: World, obj: Payload, name: string, format: string, dir: string,
                       addTimestamp: bool, timestamp: string, logId: string)
    requires obj.Table? || obj.Column?
    requires Readable(format)
    requires Save.Save(w, obj, name, format, dir, addTimestamp, timestamp, logId).outcome.Pass?
    ensures var w2 := Save.Save(w, obj, name, format, dir, addTimestamp, timestamp, logId).world;
      var full := Save.FullPath(dir, name, format, addTimestamp, timestamp);
      && Exists(w2, full)
      && ReadAs(w2, full, format) == Ok(Restored(obj, format))
  {
    var full := Save.FullPath(dir, name, format, addTimestamp, timestamp);
    var w1 := MakeDirs(w, dir);
    var w2 := w1.(log := Append(w1.log, LogEntry(logId, timestamp, full)));
    ReadWritten(w2, obj, full, format);
  }

  /** csv and xlsx: loading the full path that `save` wrote gives back the object. */
  lemma RoundTripByPath(w: World, obj: Payload, name: string, format: string, dir: string,
                        addTimestamp: bool, timestamp: string, logId: string, re: Load.Regex)
    requires obj.Table? || obj.Column?
    requires format == "csv" || format == "xlsx"
    requires SaneCall(dir, name, format, addTimestamp, timestamp, logId) && SoundLog(w)
    requires Save.Save(w, obj, name, format, dir, addTimestamp, timestamp, logId).outcome.Pass?
    ensures var w2 := Save.Save(w, obj, name, format, dir, addTimestamp, timestamp, logId).world;
      Load.Load(w2, None, None, Some(Save.FullPath(dir, name, format, addTimestamp, timestamp)), None, re)
        == Ok(Restored(obj, format))
  {
    var w2 := Save.Save(w, obj, name, format, dir, addTimestamp, timestamp, logId).world;
    var full := Save.FullPath(dir, name, format, addTimestamp, timestamp);
    AfterSave(w, obj, name, format, dir, addTimestamp, timestamp, logId);
    SavedFileReads(w, obj, name, format, dir, addTimestamp, timestamp, logId);
    assert ReadLogEntries(w2.log).Ok?;
    assert FormatOf(full) == format;
    assert Load.LoadFromFullPath(w2, full) == ReadAs(w2, full, format);
  }

  /** csv and xlsx: loading by the id of the latest `save` gives back its object, even
      if the id was logged before: the packaged loader takes the last entry. */
  lemma RoundTripById(w: World, obj: Payload, name: string, format: string, dir: string,
                      addTimestamp: bool, timestamp: string, logId: string, re: Load.Regex)
    requires obj.Table? || obj.Column?
    requires format == "csv" || format == "xlsx"
    requires |logId| > 0
    requires SaneCall(dir, name, format, addTimestamp, timestamp, logId) && SoundLog(w)
    requires Save.Save(w, obj, name, format, dir, addTimestamp, timestamp, logId).outcome.Pass?
    ensures var w2 := Save.Save(w, obj, name, format, dir, addTimestamp, timestamp, logId).world;
      Load.Load(w2, None, None, None, Some(logId), re) == Ok(Restored(obj, format))
  {
    var e := Save.EntryOf(dir, name, format, addTimestamp, timestamp, logId);
    AfterSave(w, obj, name, format, dir, addTimestamp, timestamp, logId);
    SavedFileReads(w, obj, name, format, dir, addTimestamp, timestamp, logId);
    Load.NewestById(Save.Save(w, obj, name, format, dir, addTimestamp, timestamp, logId).world, Entries(w), e, re);
  }

  /** csv and xlsx: loading by a name whose pattern finds the new file's stem, and by
      the format, gives back the object just saved: it is the latest match. */
  lemma RoundTripByName(w: World, obj: Payload, name: string, format: string, dir: string,
                        addTimestamp: bool, timestamp: string, logId: string, re: Load.Regex)
    requires obj.Table? || obj.Column?
    requires format == "csv" || format == "xlsx"
    requires SaneCall(dir, name, format, addTimestamp, timestamp, logId) && SoundLog(w)
    requires Save.Save(w, obj, name, format, dir, addTimestamp, timestamp, logId).outcome.Pass?
    requires |name| > 0 && re.compiles(name)
    requires re.search(name, Stem(Save.FullPath(dir, name, format, addTimestamp, timestamp)))
    ensures var w2 := Save.Save(w, obj, name, format, dir, addTimestamp, timestamp, logId).world;
      Load.Load(w2, Some(name), Some(format), None, None, re) == Ok(Restored(obj, format))
  {
    var e := Save.EntryOf(dir, name, format, addTimestamp, timestamp, logId);
    AfterSave(w, obj, name, format, dir, addTimestamp, timestamp, logId);
    SavedFileReads(w, obj, name, format, dir, addTimestamp, timestamp, logId);
    Load.NewestByNameAndFormat(Save.Save(w, obj, name, format, dir, addTimestamp, timestamp, logId).world, Entries(w), e, name, format, re);
  }

  // ---------------------------------------------------------------------------
  // Mappings: saved as a workbook, loaded as a workbook
  // ---------------------------------------------------------------------------

  /** A mapping whose values are all tables or series. */
  predicate Flat(items: seq<Item>) {
    forall i :: 0 <= i < |items| ==> items[i].value.Table? || items[i].value.Column?
  }

  /** Without nested mappings the loop writes no file and never fails: it only
      collects the sheets. */
  lemma {:induction false} FlatSheets(w: World, items: seq<Item>, p: string)
    requires Flat(items)
    ensures WriteSheets(w, items, p) == SheetRun(w, SheetsOf(items), Pass)
    decreases |items|
  {
    if |items| > 0 {
      assert Flat(items[1..]) by {
        forall i | 0 <= i < |items[1..]|
          ensures items[1..][i].value.Table? || items[1..][i].value.Column?
        {
          assert items[1..][i] == items[i + 1];
        }
      }
      FlatSheets(w, items[1..], p);
    }
  }

  /** An accepted mapping whose target opens can still fail, but only through a nested
      mapping: one without nested mappings is saved and the call returns. */
  lemma AcceptedMappingFailsNested(w: World, items: seq<Item>, p: string, format: string)
    requires Verdict(Mapping(items), format).Pass? && Writable(w, p).Pass?
    ensures Dispatch(w, Mapping(items), p, format).outcome.Fail? ==>
      exists i :: 0 <= i < |items| && items[i].value.Mapping?
  {
    if forall i :: 0 <= i < |items| ==> !items[i].value.Mapping? {
      FlatSheets(w, items, p);
    }
  }

  /** A mapping of tables and series saved to a writable `.xlsx` path loads back from
      that path as its sheets: one table when there is one sheet, and otherwise the
      mapping from each key to its table without the index. */
  lemma MappingReadsBack(w: World, items: seq<Item>, p: string)
    requires Flat(items) && Writable(w, p).Pass? && FormatOf(p) == "xlsx"
    ensures var r := SaveDict(w, items, p);
      && r.outcome.Pass?
      && Load.LoadFromFullPath(r.world, p) == Ok(LoadExcel(SheetsOf(items)))
    ensures |SheetsOf(items)| != 1 ==>
      Load.LoadFromFullPath(SaveDict(w, items, p).world, p) == Ok(Mapping(SheetItems(SheetsOf(items))))
  {
    FlatSheets(w, items, p);
    assert SaveDict(w, items, p) == Effect(Store(w, p, ExcelFile(SheetsOf(items))), Pass);
    StoredWorkbookReads(w, p, SheetsOf(items));
  }

  /** A workbook stored at a writable `.xlsx` path loads back from that path. */
  lemma StoredWorkbookReads(w: World, p: string, sheets: seq<Sheet>)
    requires Writable(w, p).Pass? && FormatOf(p) == "xlsx"
    ensures Load.LoadFromFullPath(Store(w, p, ExcelFile(sheets)), p) == Ok(LoadExcel(sheets))
  {
    var w2 := Store(w, p, ExcelFile(sheets));
    StoredReads(w, p, ExcelFile(sheets));
    assert Exists(w2, p);
    assert Load.LoadFromFullPath(w2, p) == ReadAs(w2, p, "xlsx");
    WorkbookReads(w2, p, sheets);
  }

  /** A workbook read as xlsx gives back its sheets as one payload. */
  lemma WorkbookReads(w: World, p: string, sheets: seq<Sheet>)
    requires Read(w, p) == Ok(ExcelFile(sheets))
    ensures ReadAs(w, p, "xlsx") == Ok(LoadExcel(sheets))
  {
  }

  /** A file stored at a writable path reads back as what was stored. */
  lemma StoredReads(w: World, p: string, c: FileContent)
    requires Writable(w, p).Pass?
    ensures Read(Store(w, p, c), p) == Ok(c)
  {
    StoreKeepsPathOpen(w, p, c);
  }

  /** Storing a file at a writable path does not put a regular file above it. */
  lemma StoreKeepsPathOpen(w: World, p: string, c: FileContent)
    requires Writable(w, p).Pass?
    ensures !UnderFile(Store(w, p, c), p)
  {
    var w2 := Store(w, p, c);
    forall a | a in Ancestors(Parent(p)) ensures a !in w2.files {
      assert a != p;
      assert a !in w.files;
    }
  }

  /** Through the packaged `save` and `load`: a mapping of tables and series saved
      as xlsx loads back from the logged path as its sheets. */
  lemma RoundTripMapping(w: World, items: seq<Item>, name: string, dir: string,
                         addTimestamp: bool, timestamp: string, logId: string, re: Load.Regex)
    requires Flat(items)
    requires SaneCall(dir, name, "xlsx", addTimestamp, timestamp, logId) && SoundLog(w)
    requires Save.Save(w, Mapping(items), name, "xlsx", dir, addTimestamp, timestamp, logId).outcome.Pass?
    ensures var w2 := Save.Save(w, Mapping(items), name, "xlsx", dir, addTimestamp, timestamp, logId).world;
      Load.Load(w2, None, None, Some(Save.FullPath(dir, name, "xlsx", addTimestamp, timestamp)), None, re)
        == Ok(LoadExcel(SheetsOf(items)))
  {
    var full := Save.FullPath(dir, name, "xlsx", addTimestamp, timestamp);
    var w1 := MakeDirs(w, dir);
    var wl := w1.(log := Append(w1.log, LogEntry(logId, timestamp, full)));
    var r := Save.Save(w, Mapping(items), name, "xlsx", dir, addTimestamp, timestamp, logId);
    assert r == SaveDict(wl, items, full);
    AfterSave(w, Mapping(items), name, "xlsx", dir, addTimestamp, timestamp, logId);
    SaveDictOpened(wl, items, full);
    MappingReadsBack(wl, items, full);
    ByPath(r.world, full, re);
  }

  /** Once the log reads, `load` with only a full path loads that path. */
  lemma ByPath(w: World, p: string, re: Load.Regex)
    requires ReadLogEntries(w.log).Ok? && |p| > 0
    ensures Load.Load(w, None, None, Some(p), None, re) == Load.LoadFromFullPath(w, p)
  {
    assert Load.Load(w, None, None, Some(p), None, re)
      == Load.LoadFromEntries(w, ReadLogEntries(w.log).value, None, None, Some(p), None, re);
  }

  // ---------------------------------------------------------------------------
  // Pickle: saved as `.p`, loaded only as `.pickle`
  // ---------------------------------------------------------------------------

  /** As written, a pickle the packaged `save` wrote cannot be loaded by its path or
      by its id: the suffix is `p`, and `_load_file` raises `ValueError`. */
  lemma PickleNotLoadable(w: World, obj: Payload, name: string, dir: string,
                          addTimestamp: bool, timestamp: string, logId: string, re: Load.Regex)
    requires obj.Table? || obj.Column?
    requires |logId| > 0
    requires SaneCall(dir, name, "pickle", addTimestamp, timestamp, logId) && SoundLog(w)
    requires Save.Save(w, obj, name, "pickle", dir, addTimestamp, timestamp, logId).outcome.Pass?
    ensures var w2 := Save.Save(w, obj, name, "pickle", dir, addTimestamp, timestamp, logId).world;
      && Load.Load(w2, None, None, Some(Save.FullPath(dir, name, "pickle", addTimestamp, timestamp)), None, re) == Err(ValueError)
      && Load.Load(w2, None, None, None, Some(logId), re) == Err(ValueError)
  {
    var e := Save.EntryOf(dir, name, "pickle", addTimestamp, timestamp, logId);
    AfterSave(w, obj, name, "pickle", dir, addTimestamp, timestamp, logId);
    SavedFileReads(w, obj, name, "pickle", dir, addTimestamp, timestamp, logId);
    var w2 := Save.Save(w, obj, name, "pickle", dir, addTimestamp, timestamp, logId).world;
    Load.NewestById(w2, Entries(w), e, re);
    assert FormatOf(e.fullPath) == "p";
    Load.PickleSuffixRefused(w2, e.fullPath);
  }

  /** `_load_file` as evidently intended: the suffix `p` that `save` writes is read as
      a pickle. */
  function LoadFileFixed(w: World, p: string): (r: Result<Payload>)
    ensures FormatOf(p) == "p" ==> r == ReadAs(w, p, "pickle")
    ensures FormatOf(p) != "p" ==> r == Load.LoadFile(w, p)
  {
    ReadAs(w, p, if FormatOf(p) == "p" then "pickle" else FormatOf(p))
  }

  /** With that correction, every table or series the packaged `save` writes as csv,
      xlsx or pickle reads back from its full path, the pickle exactly. */
  lemma FixedRoundTrip(w: World, obj: Payload, name: string, format: string, dir: string,
                       addTimestamp: bool, timestamp: string, logId: string)
    requires obj.Table? || obj.Column?
    requires Readable(format)
    requires SaneCall(dir, name, format, addTimestamp, timestamp, logId) && SoundLog(w)
    requires Save.Save(w, obj, name, format, dir, addTimestamp, timestamp, logId).outcome.Pass?
    ensures var w2 := Save.Save(w, obj, name, format, dir, addTimestamp, timestamp, logId).world;
      LoadFileFixed(w2, Save.FullPath(dir, name, format, addTimestamp, timestamp)) == Ok(Restored(obj, format))
    ensures format == "pickle" ==> Restored(obj, format) == obj
  {
    AfterSave(w, obj, name, format, dir, addTimestamp, timestamp, logId);
    SavedFileReads(w, obj, name, format, dir, addTimestamp, timestamp, logId);
  }

  // ---------------------------------------------------------------------------
  // Opposite scan directions
  // ---------------------------------------------------------------------------

  /** When two entries of a readable log share an id, the older loader resolves the id
      to the first of them (or an earlier one) and the packaged loader to the last of
      them (or a later one). */
  lemma ScanDirections(w: World, text: string, id: string, i: nat, j: nat)
    requires ParseLines(Lines(text)).Ok?
    requires var es := ParseLines(Lines(text)).value;
      i < j < |es| && es[i].logId == id && es[j].logId == id
    ensures var es := ParseLines(Lines(text)).value;
      var keep := (e: LogEntry) => e.logId == id;
      && FirstWhere(es, keep).Some? && FirstWhere(es, keep).value <= i
      && LastWhere(es, keep).Some? && LastWhere(es, keep).value >= j
      && LegacyLoad.InfoFromLog(Some(text), id) == Ok(LegacyLoad.FoundAt(es[FirstWhere(es, keep).value].fullPath))
      && Load.LoadFromLogId(w, es, id) == Load.LoadFile(w, es[LastWhere(es, keep).value].fullPath)
  {
    LegacyLoad.ScanByIdFirst(Lines(text), id);
  }

  // ---------------------------------------------------------------------------
  // A comma in a path poisons the log
  // ---------------------------------------------------------------------------

  /** Once `save` has logged a path containing a comma, the packaged `load` raises
      `ValueError` on every call, whatever it is asked for, and whatever is appended
      to the log after that line. */
  lemma CommaPoisonsLog(w: World, obj: Payload, name: string, format: string, dir: string,
                        addTimestamp: bool, timestamp: string, logId: string, later: string,
                        n: Option<string>, f: Option<string>, p: Option<string>, id: Option<string>, re: Load.Regex)
    requires var e := Save.EntryOf(dir, name, format, addTimestamp, timestamp, logId);
      && ',' in e.fullPath && Trimmed(Record(e))
      && '\n' !in e.logId && '\n' !in e.timestamp && '\n' !in e.fullPath
    requires w.log.Some? ==> EndsLine(w.log.value)
    ensures var w2 := Save.Save(w, obj, name, format, dir, addTimestamp, timestamp, logId).world;
      Load.Load(w2.(log := Some(w2.log.value + later)), n, f, p, id, re) == Err(ValueError)
  {
    var e := Save.EntryOf(dir, name, format, addTimestamp, timestamp, logId);
    var text := w.log.GetOr("");
    var w2 := Save.Save(w, obj, name, format, dir, addTimestamp, timestamp, logId).world;
    assert w2.log.value == text + Record(e) + "\n";
    PoisonedLog(text, e, later);
  }

  /** A log holding a record with a comma in its path does not read, whatever follows. */
  lemma PoisonedLog(text: string, e: LogEntry, later: string)
    requires ',' in e.fullPath && Trimmed(Record(e))
    requires '\n' !in e.logId && '\n' !in e.timestamp && '\n' !in e.fullPath
    requires EndsLine(text)
    ensures ReadLogEntries(Some(text + Record(e) + "\n" + later)) == Err(ValueError)
  {
    var logged := text + Record(e) + "\n";
    CommaBreaksRecord(e);
    assert '\n' !in Record(e) by {
      assert Record(e) == e.logId + ("," + (e.timestamp + ("," + e.fullPath)));
    }
    LinesAppend(text, Record(e));
    ParseLinesSnoc(Lines(text), Record(e));
    LinesConcat(logged, later);
    ParseLinesErrExtends(Lines(logged), Lines(later));
  }

  /** A log that does not parse stays unparseable whatever lines follow. */
  lemma {:induction false} ParseLinesErrExtends(ls: seq<string>, more: seq<string>)
    requires ParseLines(ls).Err?
    ensures ParseLines(ls + more).Err?
    decreases |ls|
  {
    assert (ls + more)[0] == ls[0];
    if ParseLine(ls[0]).Ok? {
      assert (ls + more)[1..] == ls[1..] + more;
      ParseLinesErrExtends(ls[1..], more);
    }
  }

  // ---------------------------------------------------------------------------
  // The log line is written before the object is
  // ---------------------------------------------------------------------------

  /** `save` with the log line moved after the type dispatch: the directory is still
      created and the same files are written, but a call that raises leaves no entry,
      so every entry names a path that was saved. */
  function SaveLoggingOnSuccess(w: World, obj: Payload, name: string, format: string, dir: string,
                                addTimestamp: bool, timestamp: string, logId: string): (r: Effect)
    ensures var s := Save.Save(w, obj, name, format, dir, addTimestamp, timestamp, logId);
      && r.outcome == s.outcome
      && r.world.files == s.world.files && r.world.dirs == s.world.dirs
      && (r.outcome.Pass? ==> r == s)
      && (r.outcome.Fail? ==> r.world.log == w.log)
  {
    var w1 := MakeDirs(w, dir);
    var full := Save.FullPath(dir, name, format, addTimestamp, timestamp);
    var e := Save.EntryOf(dir, name, format, addTimestamp, timestamp, logId);
    DispatchLogFree(w1, obj, full, format, Append(w1.log, e));
    var d := Dispatch(w1, obj, full, format);
    if d.outcome.Pass? then Effect(d.world.(log := Append(w1.log, e)), Pass) else d
  }

  /** Corrected: a call the acceptance table rejects leaves the files and the log as
      they were. */
  lemma RejectedSaveLeavesNoEntry(w: World, obj: Payload, name: string, format: string, dir: string,
                                  addTimestamp: bool, timestamp: string, logId: string)
    requires Verdict(obj, format).Fail?
    ensures var r := SaveLoggingOnSuccess(w, obj, name, format, dir, addTimestamp, timestamp, logId);
      && r.outcome == Verdict(obj, format)
      && r.world.files == w.files
      && r.world.log == w.log
  {
    Save.RejectedSaveStillLogs(w, obj, name, format, dir, addTimestamp, timestamp, logId);
  }

  /** Corrected: an entry is appended exactly when the call succeeds, and then its path
      names a file that exists. */
  lemma LoggedSaveWroteFile(w: World, obj: Payload, name: string, format: string, dir: string,
                            addTimestamp: bool, timestamp: string, logId: string)
    ensures var r := SaveLoggingOnSuccess(w, obj, name, format, dir, addTimestamp, timestamp, logId);
      && r.world.log == (if r.outcome.Pass? then Append(w.log, Save.EntryOf(dir, name, format, addTimestamp, timestamp, logId)) else w.log)
      && (r.outcome.Pass? ==> Save.FullPath(dir, name, format, addTimestamp, timestamp) in r.world.files)
  {
    var w1 := MakeDirs(w, dir);
    var full := Save.FullPath(dir, name, format, addTimestamp, timestamp);
    DispatchWrites(w1, obj, full, format);
  }

  /** A dispatch that succeeds leaves a file at the path it was given. */
  lemma DispatchWrites(w: World, obj: Payload, p: string, format: string)
    ensures Dispatch(w, obj, p, format).outcome.Pass? ==> p in Dispatch(w, obj, p, format).world.files
  {
    if obj.Mapping? && Dispatch(w, obj, p, format).outcome.Pass? {
      assert AllStorable(obj.items) && Writable(w, p).Pass?;
    }
  }
}

=== FILE: file_log.dfy ===
/** `file_log.log`: one `id,timestamp,full_path` line per save, appended by the
    packaged `save` through a `logging.FileHandler` and read back by both loaders. */
module FileLog {
  import opened Results
  import opened Text
  import opened Paths

  /** One parsed line of the log. */
  datatype LogEntry = LogEntry(logId: string, timestamp: string, fullPath: string) {
    /** The entry's `file_format`: the suffix of its path without the dot. */
    function Format(): string {
      FormatOf(fullPath)
    }
  }

  /** The message `save` hands to the file logger: the id, the time and the path, in
      that order, separated by single commas. */
  function Record(e: LogEntry): string {
    e.logId + "," + e.timestamp + "," + e.fullPath
  }

  /** Where the fields sit in a record: the id first, then a comma, the time, a comma,
      and the path last. */
  lemma RecordLayout(e: LogEntry)
    ensures var r := Record(e);
      && |r| == |e.logId| + |e.timestamp| + |e.fullPath| + 2
      && r[..|e.logId|] == e.logId && r[|e.logId|] == ','
      && r[|e.logId| + 1..|e.logId| + 1 + |e.timestamp|] == e.timestamp
      && r[|r| - |e.fullPath| - 1] == ',' && r[|r| - |e.fullPath|..] == e.fullPath
  {
  }

  /** The handler appends the message and a line terminator, creating the file if needed. */
  function Append(log: Option<string>, e: LogEntry): (r: Option<string>)
    ensures r.Some? && |r.value| > 0 && r.value[|r.value| - 1] == '\n'
    ensures log.Some? ==> IsPrefix(log.value, r.value)
  {
    Some(log.GetOr("") + Record(e) + "\n")
  }

  /** Reading one line of the log: the line, stripped of surrounding white space, is
      split at every comma and must give exactly three fields, id, time and path, or
      the unpacking raises `ValueError`. */
  function ParseLine(line: string): (r: Result<LogEntry>)
    ensures r.Err? ==> r.error == ValueError
  {
    var fields := Split(Strip(line), ',');
    if |fields| == 3 then Ok(LogEntry(fields[0], fields[1], fields[2])) else Err(ValueError)
  }

  /** A line parses exactly when it splits into three fields, and then it is, once
      stripped, the record of the entry it parses to, whose fields hold no comma. */
  lemma ParseLineSpec(line: string)
    ensures ParseLine(line).Ok? <==> |Split(Strip(line), ',')| == 3
    ensures ParseLine(line).Ok? ==> Record(ParseLine(line).value) == Strip(line)
    ensures ParseLine(line).Ok? ==> var e := ParseLine(line).value;
      ',' !in e.logId && ',' !in e.timestamp && ',' !in e.fullPath
  {
    var fields := Split(Strip(line), ',');
    SplitFields(Strip(line), ',');
    SplitThenJoin(Strip(line), ',');
    if |fields| == 3 {
      var e := LogEntry(fields[0], fields[1], fields[2]);
      RecordIsJoin(e);
      assert fields == [e.logId, e.timestamp, e.fullPath];
    }
  }

  /** The record is the three fields joined by commas. */
  lemma RecordIsJoin(e: LogEntry)
    ensures Record(e) == JoinWith([e.logId, e.timestamp, e.fullPath], ',')
  {
    var fields := [e.logId, e.timestamp, e.fullPath];
    assert fields[1..] == [e.timestamp, e.fullPath];
    assert fields[1..][1..] == [e.fullPath];
    assert JoinWith(fields[1..][1..], ',') == e.fullPath;
    assert JoinWith(fields[1..], ',') == e.timestamp + [','] + e.fullPath;
    assert Record(e) == e.logId + [','] + (e.timestamp + [','] + e.fullPath);
  }

  /** An entry whose record reads back as itself: no field holds a comma or a line
      terminator, and the record neither starts nor ends with white space. */
  predicate Clean(e: LogEntry) {
    && ',' !in e.logId && ',' !in e.timestamp && ',' !in e.fullPath
    && '\n' !in e.logId && '\n' !in e.timestamp && '\n' !in e.fullPath
    && Trimmed(Record(e))
  }

  /** Parsing inverts the record written by `save` for a clean entry. */
  lemma ParseRecord(e: LogEntry)
    requires Clean(e)
    ensures ParseLine(Record(e)) == Ok(e)
  {
    RecordIsJoin(e);
    SplitJoin([e.logId, e.timestamp, e.fullPath], ',');
  }

  /** A comma inside the path turns the record into a line the loaders cannot parse:
      a parsed line holds exactly two commas, and this record holds at least three. */
  lemma CommaBreaksRecord(e: LogEntry)
    requires Trimmed(Record(e))
    requires ',' in e.fullPath
    ensures ParseLine(Record(e)) == Err(ValueError)
  {
    ParseLineSpec(Record(e));
    if ParseLine(Record(e)).Ok? {
      TwoCommas(ParseLine(Record(e)).value);
    }
  }

  lemma TwoCommas(p: LogEntry)
    requires ',' !in p.logId && ',' !in p.timestamp && ',' !in p.fullPath
    ensures multiset(Record(p))[','] == 2
  {
  }

  /** `_read_log_entries` body: every line parsed, in file order; the first line that
      does not split into three fields makes the whole read fail. */
  function ParseLines(ls: seq<string>): (r: Result<seq<LogEntry>>)
    ensures r.Err? ==> r.error == ValueError
    ensures r.Ok? ==> |r.value| == |ls|
  {
    if |ls| == 0 then Ok([])
    else
      var first := ParseLine(ls[0]);
      var rest := ParseLines(ls[1..]);
      if first.Err? then Err(ValueError)
      else if rest.Err? then Err(ValueError)
      else Ok([first.value] + rest.value)
  }

  /** The log reads as entries exactly when every line parses, and then entry `i` is line `i` parsed. */
  lemma ParseLinesSpec(ls: seq<string>)
    ensures ParseLines(ls).Ok? <==> forall i :: 0 <= i < |ls| ==> ParseLine(ls[i]).Ok?
    ensures ParseLines(ls).Ok? ==> forall i :: 0 <= i < |ls| ==> ParseLine(ls[i]) == Ok(ParseLines(ls).value[i])
  {
    ParseLinesOk(ls);
    if ParseLines(ls).Ok? {
      ParseLinesValues(ls);
    }
  }

  lemma {:induction false} ParseLinesOk(ls: seq<string>)
    ensures ParseLines(ls).Ok? <==> forall i :: 0 <= i < |ls| ==> ParseLine(ls[i]).Ok?
    decreases |ls|
  {
    if |ls| > 0 {
      ParseLinesOk(ls[1..]);
      assert forall i :: 1 <= i < |ls| ==> ls[1..][i - 1] == ls[i];
    }
  }

  lemma {:induction false} ParseLinesValues(ls: seq<string>)
    requires ParseLines(ls).Ok?
    ensures forall i :: 0 <= i < |ls| ==> ParseLine(ls[i]) == Ok(ParseLines(ls).value[i])
    decreases |ls|
  {
    if |ls| > 0 {
      ParseLinesStep(ls);
      ParseLinesValues(ls[1..]);
      var vs, rest := ParseLines(ls).value, ParseLines(ls[1..]).value;
      forall i | 1 <= i < |ls|
        ensures ParseLine(ls[i]) == Ok(vs[i])
      {
        assert ls[1..][i - 1] == ls[i];
        assert vs[i] == rest[i - 1];
      }
    }
  }

  /** The entries of a log whose first line parses: that line's entry, then the rest. */
  lemma ParseLinesStep(ls: seq<string>)
    requires |ls| > 0 && ParseLines(ls).Ok?
    ensures ParseLine(ls[0]).Ok? && ParseLines(ls[1..]).Ok?
    ensures ParseLines(ls).value == [ParseLine(ls[0]).value] + ParseLines(ls[1..]).value
    ensures ParseLines(ls).value[0] == ParseLine(ls[0]).value
    ensures ParseLines(ls).value[1..] == ParseLines(ls[1..]).value
  {
  }

  /** `_read_log_entries()`: opening a missing log raises `FileNotFoundError`. */
  function ReadLogEntries(log: Option<string>): (r: Result<seq<LogEntry>>)
    ensures log.None? ==> r == Err(FileNotFoundError)
    ensures log.Some? ==> r == ParseLines(Lines(log.value))
  {
    match log
    case None => Err(FileNotFoundError)
    case Some(text) => ParseLines(Lines(text))
  }

  /** Parsing one more line extends the parsed entries by that line's entry. */
  lemma {:induction false} ParseLinesSnoc(ls: seq<string>, l: string)
    ensures ParseLines(ls + [l]) == Extended(ParseLines(ls), ParseLine(l))
    decreases |ls|
  {
    if |ls| == 0 {
      assert ls + [l] == [l] + [];
      ParseLinesCons(l, []);
      if ParseLine(l).Ok? {
        assert [ParseLine(l).value] + [] == [] + [ParseLine(l).value];
      }
    } else {
      ParseLinesSnoc(ls[1..], l);
      SnocStep(ls[0], ls[1..], l);
      assert [ls[0]] + ls[1..] == ls;
      assert [ls[0]] + ls[1..] + [l] == ls + [l];
    }
  }

  /** The entries parsed so far, extended by one more parsed line. */
  function Extended(es: Result<seq<LogEntry>>, e: Result<LogEntry>): Result<seq<LogEntry>> {
    if es.Ok? && e.Ok? then Ok(es.value + [e.value]) else Err(ValueError)
  }

  lemma SnocStep(l0: string, rest: seq<string>, l: string)
    requires ParseLines(rest + [l]) == Extended(ParseLines(rest), ParseLine(l))
    ensures ParseLines([l0] + rest + [l]) == Extended(ParseLines([l0] + rest), ParseLine(l))
  {
    assert [l0] + rest + [l] == [l0] + (rest + [l]);
    ParseLinesCons(l0, rest + [l]);
    ParseLinesCons(l0, rest);
    ExtendedCons(ParseLine(l0), ParseLines(rest), ParseLine(l));
  }

  /** Prefixing one entry and extending by another commute. */
  lemma ExtendedCons(a: Result<LogEntry>, es: Result<seq<LogEntry>>, c: Result<LogEntry>)
    ensures Prefixed(a, Extended(es, c)) == Extended(Prefixed(a, es), c)
  {
    if a.Ok? && es.Ok? && c.Ok? {
      assert [a.value] + (es.value + [c.value]) == ([a.value] + es.value) + [c.value];
    }
  }

  /** One parsed line before the entries parsed after it. */
  function Prefixed(e: Result<LogEntry>, es: Result<seq<LogEntry>>): Result<seq<LogEntry>> {
    if e.Ok? && es.Ok? then Ok([e.value] + es.value) else Err(ValueError)
  }

  /** Parsing a first line and then the rest. */
  lemma ParseLinesCons(l: string, rest: seq<string>)
    ensures ParseLines([l] + rest) == Prefixed(ParseLine(l), ParseLines(rest))
  {
    assert ([l] + rest)[0] == l;
    assert ([l] + rest)[1..] == rest;
  }

  /** Appending the record of a clean entry to a log that ends at a line boundary adds
      exactly that entry after the ones already there, and keeps an unreadable log unreadable. */
  lemma AppendThenRead(log: Option<string>, e: LogEntry)
    requires Clean(e)
    requires log.Some? ==> EndsLine(log.value)
    ensures ReadLogEntries(Append(log, e)) ==
      if log.None? then Ok([e])
      else if ReadLogEntries(log).Ok? then Ok(ReadLogEntries(log).value + [e])
      else Err(ValueError)
  {
    var text := log.GetOr("");
    LinesAppend(text, Record(e));
    assert Append(log, e).value == text + Record(e) + "\n";
    ParseLinesSnoc(Lines(text), Record(e));
    ParseRecord(e);
    if log.None? {
      assert Lines(text) == [];
      assert Lines(text) + [Record(e)] == [Record(e)];
      assert ParseLines([]) == Ok([]);
      assert [] + [e] == [e];
    }
  }

  /** The index of the last entry that passes the filter, if any. Keeping every
      passing entry and taking the last one, and scanning backwards until the first
      hit, both give this index. */
  function LastWhere(es: seq<LogEntry>, keep: LogEntry -> bool): (r: Option<nat>)
    ensures r.Some? ==> r.value < |es| && keep(es[r.value])
    ensures r.Some? ==> forall j :: r.value < j < |es| ==> !keep(es[j])
    ensures r.None? <==> forall j :: 0 <= j < |es| ==> !keep(es[j])
  {
    if |es| == 0 then None
    else if keep(es[|es| - 1]) then Some(|es| - 1)
    else LastWhere(es[..|es| - 1], keep)
  }

  /** An entry appended last is the one a backward scan finds when it qualifies. */
  lemma LastWhereNewest(es: seq<LogEntry>, e: LogEntry, keep: LogEntry -> bool)
    requires keep(e)
    ensures LastWhere(es + [e], keep) == Some(|es|)
  {
  }

  /** A forward scan that stops at the first hit: the index of the first kept entry. */
  function FirstWhere(es: seq<LogEntry>, keep: LogEntry -> bool): (r: Option<nat>)
    ensures r.Some? ==> r.value < |es| && keep(es[r.value])
    ensures r.Some? ==> forall j :: 0 <= j < r.value ==> !keep(es[j])
    ensures r.None? <==> forall j :: 0 <= j < |es| ==> !keep(es[j])
  {
    if |es| == 0 then None
    else if keep(es[0]) then Some(0)
    else match FirstWhere(es[1..], keep)
      case None => None
      case Some(k) => Some(k + 1)
  }
}

=== FILE: legacy_load.dfy ===
/** The older `load` in `src/load.py`. It reads the log line by line only when it has
    to, stopping at the first line that settles the question: by log id, then (if a
    directory or format is still missing) by a name contained in the stem. It then
    builds `dir/name.ext` itself, or globs for a name with a `*`. `Path.glob` is a
    parameter: the paths it yields for a directory and a pattern are given. */
module LegacyLoad {
  import opened Results
  import opened Text
  import opened Paths
  import opened Payloads
  import opened FileLog
  import opened Writers
  import opened Readers

  /** What a log line's path tells: `full_path.stem`, `full_path.suffix[1:]`, `full_path.parent`. */
  datatype Found = Found(name: string, format: string, dir: string)

  function FoundAt(p: string): (r: Found)
    ensures |r.dir| > 0
  {
    Found(Stem(p), FormatOf(p), Parent(p))
  }

  /** The object `load` returns: one object, or a list when a pattern matched several files. */
  datatype Loaded = One(value: Payload) | Many(values: seq<Payload>)

  /** The loop of `_get_file_info_from_log`: lines are unpacked one by one, so a line
      that does not split into three fields raises `ValueError` only if no earlier
      line had the id. */
  function ScanById(ls: seq<string>, id: string): (r: Result<Found>)
    ensures r.Err? ==> r.error == ValueError || r.error == FileNotFoundError
    ensures r.Ok? ==> |r.value.dir| > 0
  {
    if |ls| == 0 then Err(FileNotFoundError)
    else
      var e :- ParseLine(ls[0]);
      if e.logId == id then Ok(FoundAt(e.fullPath)) else ScanById(ls[1..], id)
  }

  /** The loop of `_search_file_log`: the first line whose stem contains `name`. A
      missing name cannot be searched for: `None in stem` raises `TypeError` as soon
      as a line is reached. */
  function ScanByName(ls: seq<string>, name: Option<string>): (r: Result<Found>)
    ensures r.Ok? ==> name.Some? && Contains(r.value.name, name.value) && |r.value.dir| > 0
  {
    if |ls| == 0 then Err(FileNotFoundError)
    else
      var e :- ParseLine(ls[0]);
      if name.None? then Err(TypeError)
      else if NameIn(e, name.value) then Ok(FoundAt(e.fullPath))
      else ScanByName(ls[1..], name)
  }

  /** `_get_file_info_from_log(id)`: a missing log raises `FileNotFoundError`. */
  function InfoFromLog(log: Option<string>, id: string): (r: Result<Found>)
    ensures log.None? ==> r == Err(FileNotFoundError)
  {
    match log
    case None => Err(FileNotFoundError)
    case Some(text) => ScanById(Lines(text), id)
  }

  /** `_search_file_log(name)`: a missing log raises `FileNotFoundError`. */
  function SearchFileLog(log: Option<string>, name: Option<string>): (r: Result<Found>)
    ensures log.None? ==> r == Err(FileNotFoundError)
  {
    match log
    case None => Err(FileNotFoundError)
    case Some(text) => ScanByName(Lines(text), name)
  }

  /** Name, format and directory once the log has been consulted. */
  datatype Located = Located(name: Option<string>, format: string, dir: string)

  /** Lines 39-40: a directory and format that are both given are kept; otherwise all
      three come from the log entry the name points at. */
  function Settle(log: Option<string>, name: Option<string>, format: Option<string>, dir: Option<string>): (r: Result<Located>)
    ensures Truthy(dir) && Truthy(format) ==> r == Ok(Located(name, format.value, dir.value))
  {
    if Truthy(dir) && Truthy(format) then Ok(Located(name, format.value, dir.value))
    else
      var f :- SearchFileLog(log, name);
      Ok(Located(Some(f.name), f.format, f.dir))
  }

  /** With the directory or the format missing and a log whose lines all parse, the
      first entry whose stem contains the name decides: without one the call raises
      `FileNotFoundError`; with one, its stem, format and directory replace all three
      arguments. */
  lemma SettleByName(log: string, name: string, format: Option<string>, dir: Option<string>)
    requires ParseLines(Lines(log)).Ok? && !(Truthy(dir) && Truthy(format))
    ensures var es := ParseLines(Lines(log)).value;
      var at := FirstWhere(es, (e: LogEntry) => NameIn(e, name));
      var r := Settle(Some(log), Some(name), format, dir);
      && (at.None? ==> r == Err(FileNotFoundError))
      && (at.Some? ==>
            var p := es[at.value].fullPath;
            r == Ok(Located(Some(Stem(p)), FormatOf(p), Parent(p))))
  {
    ScanByNameFirst(Lines(log), name);
  }

  /** Lines 36-40: a log id, when given, overrides all three arguments first. */
  function Locate(log: Option<string>, name: Option<string>, format: Option<string>, dir: Option<string>,
                  logId: Option<string>): (r: Result<Located>)
    ensures !Truthy(logId) ==> r == Settle(log, name, format, dir)
    ensures Truthy(logId) && log.None? ==> r == Err(FileNotFoundError)
  {
    if Truthy(logId) then
      var f :- InfoFromLog(log, logId.value);
      Settle(log, Some(f.name), Some(f.format), Some(f.dir))
    else Settle(log, name, format, dir)
  }

  /** With a log id and a log whose lines all parse, the first entry carrying the id
      decides: without one the call raises `FileNotFoundError`; with one, its stem,
      format and directory replace the arguments, and a path without a suffix sends
      the call on to the search by that stem. */
  lemma LocateById(log: string, name: Option<string>, format: Option<string>, dir: Option<string>, id: string)
    requires |id| > 0 && ParseLines(Lines(log)).Ok?
    ensures var es := ParseLines(Lines(log)).value;
      var at := FirstWhere(es, (e: LogEntry) => e.logId == id);
      var r := Locate(Some(log), name, format, dir, Some(id));
      && (at.None? ==> r == Err(FileNotFoundError))
      && (at.Some? && |FormatOf(es[at.value].fullPath)| > 0 ==>
            var p := es[at.value].fullPath;
            r == Ok(Located(Some(Stem(p)), FormatOf(p), Parent(p))))
      && (at.Some? && |FormatOf(es[at.value].fullPath)| == 0 ==>
            var p := es[at.value].fullPath;
            r == Settle(Some(log), Some(Stem(p)), Some(""), Some(Parent(p))))
  {
    var es := ParseLines(Lines(log)).value;
    var keep := (e: LogEntry) => e.logId == id;
    ScanByIdFirst(Lines(log), id);
    assert InfoFromLog(Some(log), id) == FoundFirst(es, keep);
    match FirstWhere(es, keep)
    case None =>
    case Some(k) =>
      var p := es[k].fullPath;
      assert InfoFromLog(Some(log), id) == Ok(Found(Stem(p), FormatOf(p), Parent(p)));
      assert Locate(Some(log), name, format, dir, Some(id)) == Settle(Some(log), Some(Stem(p)), Some(FormatOf(p)), Some(Parent(p)));
  }

  /** `_load_single_file` over every file the pattern matched, in order; the first
      failure ends the load. */
  function ReadAll(w: World, files: seq<string>, format: string): (r: Result<seq<Payload>>)
    ensures r.Ok? ==> |r.value| == |files|
    ensures r.Ok? ==> forall i :: 0 <= i < |files| ==> ReadAs(w, files[i], format) == Ok(r.value[i])
  {
    if |files| == 0 then Ok([])
    else
      var first :- ReadAs(w, files[0], format);
      var rest :- ReadAll(w, files[1..], format);
      Ok([first] + rest)
  }

  /** `_load_files_by_pattern` after the glob: no file raises `FileNotFoundError`, one
      file gives its object, several give the list of objects. */
  function LoadFilesByPattern(w: World, files: seq<string>, format: string): (r: Result<Loaded>)
    ensures |files| == 0 ==> r == Err(FileNotFoundError)
    ensures r.Ok? ==> (|files| == 1 <==> r.value.One?)
    ensures r.Ok? && r.value.Many? ==> |r.value.values| == |files|
  {
    if |files| == 0 then Err(FileNotFoundError)
    else
      var all :- ReadAll(w, files, format);
      if |all| == 1 then Ok(One(all[0])) else Ok(Many(all))
  }

  /** `load(name, file_format, file_path, log_id)`. */
  function Load(w: World, name: Option<string>, format: Option<string>, dir: Option<string>,
                logId: Option<string>, glob: (string, string) -> seq<string>): (r: Result<Loaded>)
    ensures r.Ok? ==> Locate(w.log, name, format, dir, logId).Ok?
    ensures Locate(w.log, name, format, dir, logId).Ok? && !Exists(w, Locate(w.log, name, format, dir, logId).value.dir) ==>
      r == Err(FileNotFoundError)
  {
    var at :- Locate(w.log, name, format, dir, logId);
    if !Exists(w, at.dir) then Err(FileNotFoundError)
    else match at.name
      case None => Err(TypeError)
      case Some(n) =>
        if '*' in n then LoadFilesByPattern(w, glob(at.dir, n + "." + at.format), at.format)
        else
          var obj :- ReadAs(w, Join(at.dir, n + "." + Extension(at.format)), at.format);
          Ok(One(obj))
  }

  // ---------------------------------------------------------------------------
  // Properties
  // ---------------------------------------------------------------------------

  /** On a log whose every line parses, the id scan finds the first entry with the id. */
  lemma {:induction false} ScanByIdFirst(ls: seq<string>, id: string)
    requires ParseLines(ls).Ok?
    ensures ScanById(ls, id) == FoundFirst(ParseLines(ls).value, (e: LogEntry) => e.logId == id)
    decreases |ls|
  {
    if |ls| > 0 {
      var es := ParseLines(ls).value;
      ParseLinesStep(ls);
      assert es[1..] == ParseLines(ls[1..]).value;
      ScanByIdFirst(ls[1..], id);
      FoundFirstStep(es, (e: LogEntry) => e.logId == id);
      ScanByIdStep(ls, id);
    }
  }

  /** On a log whose every line parses, the name scan finds the first entry whose stem
      contains the name. */
  lemma {:induction false} ScanByNameFirst(ls: seq<string>, name: string)
    requires ParseLines(ls).Ok?
    ensures ScanByName(ls, Some(name)) == FoundFirst(ParseLines(ls).value, (e: LogEntry) => NameIn(e, name))
    decreases |ls|
  {
    if |ls| > 0 {
      var es := ParseLines(ls).value;
      ParseLinesStep(ls);
      assert es[1..] == ParseLines(ls[1..]).value;
      ScanByNameFirst(ls[1..], name);
      FoundFirstStep(es, (e: LogEntry) => NameIn(e, name));
      ScanByNameStep(ls, name);
    }
  }

  /** What a forward scan that stops at the first kept entry reports. */
  function FoundFirst(es: seq<LogEntry>, keep: LogEntry -> bool): Result<Found> {
    match FirstWhere(es, keep)
    case None => Err(FileNotFoundError)
    case Some(k) => Ok(FoundAt(es[k].fullPath))
  }

  lemma FoundFirstStep(es: seq<LogEntry>, keep: LogEntry -> bool)
    requires |es| > 0
    ensures FoundFirst(es, keep) == if keep(es[0]) then Ok(FoundAt(es[0].fullPath)) else FoundFirst(es[1..], keep)
  {
    if !keep(es[0]) {
      match FirstWhere(es[1..], keep)
      case None =>
      case Some(k) =>
        assert es[k + 1] == es[1..][k];
    }
  }

  lemma ScanByIdStep(ls: seq<string>, id: string)
    requires |ls| > 0 && ParseLine(ls[0]).Ok?
    ensures var e := ParseLine(ls[0]).value;
      ScanById(ls, id) == if e.logId == id then Ok(FoundAt(e.fullPath)) else ScanById(ls[1..], id)
  {
  }

  lemma ScanByNameStep(ls: seq<string>, name: string)
    requires |ls| > 0 && ParseLine(ls[0]).Ok?
    ensures var e := ParseLine(ls[0]).value;
      ScanByName(ls, Some(name)) == if NameIn(e, name) then Ok(FoundAt(e.fullPath)) else ScanByName(ls[1..], Some(name))
  {
  }

  /** The test of `_search_file_log`: the name occurs in the stem of the logged path.
      An empty name occurs in every stem; a name longer than the stem in none. */
  predicate NameIn(e: LogEntry, name: string): (r: bool)
    ensures |name| == 0 ==> r
    ensures r ==> |name| <= |Stem(e.fullPath)|
    ensures IsPrefix(name, Stem(e.fullPath)) ==> r
  {
    Contains(Stem(e.fullPath), name)
  }

  /** The id scan never reads past the line it stops at: lines appended after a
      match, even ones that do not parse, change nothing. */
  lemma {:induction false} ScanByIdStops(ls: seq<string>, more: seq<string>, id: string)
    requires ScanById(ls, id).Ok?
    ensures ScanById(ls + more, id) == ScanById(ls, id)
    decreases |ls|
  {
    assert (ls + more)[0] == ls[0];
    if ParseLine(ls[0]).value.logId != id {
      assert (ls + more)[1..] == ls[1..] + more;
      ScanByIdStops(ls[1..], more, id);
    }
  }

  /** Without a name there is nothing to search for: once the log has a first line
      that parses, the search raises `TypeError`. */
  lemma MissingNameSearch(text: string)
    requires |Lines(text)| > 0 && ParseLine(Lines(text)[0]).Ok?
    ensures SearchFileLog(Some(text), None) == Err(TypeError)
  {
  }

  /** A directory and format given without a name reach the `'*' in name` test with
      `None` once the directory exists, and raise `TypeError`. */
  lemma MissingNameLoad(w: World, format: string, dir: string, glob: (string, string) -> seq<string>)
    requires |format| > 0 && |dir| > 0 && Exists(w, dir)
    ensures Load(w, None, Some(format), Some(dir), None, glob) == Err(TypeError)
  {
  }

  /** Once located, a name with `*` globs for `name.format`, with the format as given
      (`pickle`, not the saved `p`); any other name reads `dir/name.ext` as the format. */
  lemma LoadBranches(w: World, name: Option<string>, format: Option<string>, dir: Option<string>,
                     logId: Option<string>, glob: (string, string) -> seq<string>)
    requires Locate(w.log, name, format, dir, logId).Ok?
    requires var at := Locate(w.log, name, format, dir, logId).value; Exists(w, at.dir) && at.name.Some?
    ensures var at := Locate(w.log, name, format, dir, logId).value;
      var n := at.name.value;
      var r := Load(w, name, format, dir, logId, glob);
      && ('*' in n ==> r == LoadFilesByPattern(w, glob(at.dir, n + "." + at.format), at.format))
      && ('*' !in n && r.Ok? ==> r.value.One? && ReadAs(w, Join(at.dir, n + "." + Extension(at.format)), at.format) == Ok(r.value.value))
      && ('*' !in n && r.Err? ==>
            ReadAs(w, Join(at.dir, n + "." + Extension(at.format)), at.format).Err? &&
            r == Err(ReadAs(w, Join(at.dir, n + "." + Extension(at.format)), at.format).error))
  {
  }

  /** A log entry for a pickled object carries the suffix `p`, which the format
      dispatch does not know: loading it by its id raises `ValueError`, even though the
      file it names exists. */
  lemma LogResolvedPickleRefused(w: World, logId: string, glob: (string, string) -> seq<string>)
    requires |logId| > 0
    requires InfoFromLog(w.log, logId).Ok?
    requires var f := InfoFromLog(w.log, logId).value;
      f.format == "p" && '*' !in f.name && Exists(w, f.dir)
    ensures Load(w, None, None, None, Some(logId), glob) == Err(ValueError)
  {
    var f := InfoFromLog(w.log, logId).value;
    var at := Located(Some(f.name), "p", f.dir);
    assert Settle(w.log, Some(f.name), Some(f.format), Some(f.dir)) == Ok(at);
    assert Locate(w.log, None, None, None, Some(logId)) == Ok(at);
    assert ReadAs(w, Join(at.dir, f.name + "." + Extension("p")), "p") == Err(ValueError);
  }

  /** A directory argument that is an existing regular file passes the existence
      test, and reading `dir/name.ext` below it raises `NotADirectoryError`. */
  lemma DirectoryIsAFile(w: World, name: string, format: string, dir: string, glob: (string, string) -> seq<string>)
    requires Readable(format) && |dir| > 0 && dir in w.files
    requires '*' !in name && '/' !in name && '/' !in format
    ensures Load(w, Some(name), Some(format), Some(dir), None, glob) == Err(NotADirectoryError)
  {
    var file := name + "." + Extension(format);
    FileNameNoSlash(name, Extension(format));
    BelowFile(w, dir, file);
    assert Locate(w.log, Some(name), Some(format), Some(dir), None) == Ok(Located(Some(name), format, dir));
    assert Read(w, Join(dir, file)) == Err(NotADirectoryError);
  }

  lemma FileNameNoSlash(name: string, ext: string)
    requires '/' !in name && '/' !in ext
    ensures '/' !in name + "." + ext
  {
    assert name + "." + ext == name + ("." + ext);
  }

  /** A path directly below a regular file runs through that file. */
  lemma BelowFile(w: World, dir: string, file: string)
    requires |dir| > 0 && '/' !in file && dir in w.files
    ensures UnderFile(w, Join(dir, file))
  {
    JoinParts(dir, file);
    assert dir in Ancestors(Parent(Join(dir, file)));
  }
}

=== FILE: legacy_save.dfy ===
/** The older `save` in `src/save.py`: the same writers, but the file is always
    `dir/name.ext`, with no timestamp, and nothing is logged. */
module LegacySave {
  import opened Results
  import opened Paths
  import opened Payloads
  import opened FileLog
  import opened Writers
  import Packaged = Save

  /** Where the older `save` writes: the path the packaged one gives the same name
      when no timestamp is asked for, whatever the time. */
  function FullPath(dir: string, name: string, format: string): (r: string)
    ensures forall t :: r == Packaged.FullPath(dir, name, format, false, t)
  {
    Join(dir, name + "." + Extension(format))
  }

  /** `save(obj, name, format, path)`: the directory exists afterwards and the log is
      left exactly as it was, whatever the outcome. */
  function Save(w: World, obj: Payload, name: string, format: string, dir: string): (r: Effect)
    ensures dir in r.world.dirs
    ensures r.world.log == w.log
  {
    Dispatch(MakeDirs(w, dir), obj, FullPath(dir, name, format), format)
  }

  /** Saving `data` to `out` writes `out/data.csv`, `out/data.xlsx` and `out/data.p`. */
  lemma SavedFileNames()
    ensures FullPath("out", "data", "csv") == "out/data.csv"
    ensures FullPath("out", "data", "xlsx") == "out/data.xlsx"
    ensures FullPath("out", "data", "pickle") == "out/data.p"
  {
  }

  /** The file sits in `dir`, its stem is `name` and its suffix the extension. */
  lemma FullPathParts(dir: string, name: string, format: string)
    requires |dir| > 0 && |name| > 0 && |format| > 0
    requires '/' !in name && '/' !in format && '.' !in format
    ensures Parent(FullPath(dir, name, format)) == dir
    ensures Stem(FullPath(dir, name, format)) == name
    ensures FormatOf(FullPath(dir, name, format)) == Extension(format)
  {
    StemAndFormat(dir, name, Extension(format));
  }

  /** The packaged `save` without a timestamp writes the same files to the same
      place with the same outcome as this one; it only differs by its log line. */
  lemma SameFilesAsPackaged(w: World, obj: Payload, name: string, format: string, dir: string,
                            timestamp: string, logId: string)
    ensures var legacy := Save(w, obj, name, format, dir);
      var packaged := Packaged.Save(w, obj, name, format, dir, false, timestamp, logId);
      && packaged.outcome == legacy.outcome
      && packaged.world == legacy.world.(log := Append(w.log, Packaged.EntryOf(dir, name, format, false, timestamp, logId)))
  {
    var w1 := MakeDirs(w, dir);
    var full := FullPath(dir, name, format);
    assert Packaged.FullPath(dir, name, format, false, timestamp) == full;
    DispatchLogFree(w1, obj, full, format, Append(w.log, Packaged.EntryOf(dir, name, format, false, timestamp, logId)));
  }
}

=== FILE: load.dfy ===
/** The packaged `load`: read the whole file log first, then resolve the file by the
    first argument given, in the order full path, name and/or format, log id. Python's
    `re` module is a parameter: which patterns compile and which texts they find a
    match in are given, not modelled. */
module Load {
  import opened Results
  import opened Paths
  import opened Payloads
  import opened FileLog
  import opened Readers

  /** `re.compile(pattern)` succeeds, and `compiled.search(text)` finds a match. */
  datatype Regex = Regex(compiles: string -> bool, search: (string, string) -> bool)

  /** `_load_file`: dispatch on the path's own suffix, not on any requested format. */
  function LoadFile(w: World, p: string): (r: Result<Payload>)
    ensures !Readable(FormatOf(p)) ==> r == Err(ValueError)
  {
    ReadAs(w, p, FormatOf(p))
  }

  /** `_load_from_full_path`: a path that does not exist raises `FileNotFoundError`. */
  function LoadFromFullPath(w: World, p: string): (r: Result<Payload>)
    ensures !Exists(w, p) ==> r == Err(FileNotFoundError)
    ensures Exists(w, p) ==> r == LoadFile(w, p)
  {
    if Exists(w, p) then LoadFile(w, p) else Err(FileNotFoundError)
  }

  /** The filter of `_load_from_name_and_format`: the stem matches the pattern when a
      name is given, and the format is the requested one when a format is given. */
  predicate Matches(e: LogEntry, name: Option<string>, format: Option<string>, re: Regex): (r: bool)
    ensures !Truthy(name) && !Truthy(format) ==> r
    ensures r && Truthy(format) ==> FormatOf(e.fullPath) == format.value
    ensures Truthy(format) && FormatOf(e.fullPath) != format.value ==> !r
  {
    && (Truthy(name) ==> re.search(name.value, Stem(e.fullPath)))
    && (Truthy(format) ==> e.Format() == format.value)
  }

  /** Which entry `_load_from_name_and_format` loads: an uncompilable name raises
      `re.error`; otherwise the index of the last matching entry, if any. */
  function PickByNameAndFormat(es: seq<LogEntry>, name: Option<string>, format: Option<string>, re: Regex): (r: Result<Option<nat>>)
    ensures r.Err? <==> Truthy(name) && !re.compiles(name.value)
    ensures r.Err? ==> r.error == PatternError
    ensures r == Ok(None) <==> (!Truthy(name) || re.compiles(name.value)) && forall j :: 0 <= j < |es| ==> !Matches(es[j], name, format, re)
    ensures r.Ok? && r.value.Some? ==> var i := r.value.value;
      && i < |es| && Matches(es[i], name, format, re)
      && forall j :: i < j < |es| ==> !Matches(es[j], name, format, re)
  {
    if Truthy(name) && !re.compiles(name.value) then Err(PatternError)
    else Ok(LastWhere(es, (e: LogEntry) => Matches(e, name, format, re)))
  }

  /** `_load_from_name_and_format`: load the latest matching entry's file, or raise
      `FileNotFoundError` when nothing in the log matches. */
  function LoadFromNameAndFormat(w: World, es: seq<LogEntry>, name: Option<string>, format: Option<string>, re: Regex): (r: Result<Payload>)
    ensures PickByNameAndFormat(es, name, format, re).Err? ==> r == Err(PatternError)
    ensures PickByNameAndFormat(es, name, format, re) == Ok(None) ==> r == Err(FileNotFoundError)
    ensures PickByNameAndFormat(es, name, format, re).Ok? && PickByNameAndFormat(es, name, format, re).value.Some? ==>
      var i := PickByNameAndFormat(es, name, format, re).value.value;
      i < |es| && r == LoadFile(w, es[i].fullPath)
  {
    var pick :- PickByNameAndFormat(es, name, format, re);
    match pick
    case None => Err(FileNotFoundError)
    case Some(i) => LoadFile(w, es[i].fullPath)
  }

  /** `_load_from_log_id`: scan the log from the end and load the first entry with the
      id, i.e. the latest one; no such entry raises `FileNotFoundError`. */
  function LoadFromLogId(w: World, es: seq<LogEntry>, logId: string): (r: Result<Payload>)
    ensures (forall j :: 0 <= j < |es| ==> es[j].logId != logId) ==> r == Err(FileNotFoundError)
    ensures forall i :: 0 <= i < |es| && es[i].logId == logId && (forall j :: i < j < |es| ==> es[j].logId != logId) ==>
      r == LoadFile(w, es[i].fullPath)
  {
    var keep := (e: LogEntry) => e.logId == logId;
    forall i | 0 <= i < |es| && es[i].logId == logId && (forall j :: i < j < |es| ==> es[j].logId != logId)
      ensures LastWhere(es, keep) == Some(i)
    {
      assert keep(es[i]);
      assert LastWhere(es, keep).Some?;
    }
    match LastWhere(es, keep)
    case None => Err(FileNotFoundError)
    case Some(i) => LoadFile(w, es[i].fullPath)
  }

  /** `load(file_name, file_format, full_file_path, log_id)`: the log is read before
      anything else, so a missing or unreadable log fails every call. */
  function Load(w: World, name: Option<string>, format: Option<string>, fullPath: Option<string>,
                logId: Option<string>, re: Regex): (r: Result<Payload>)
    ensures ReadLogEntries(w.log).Err? ==> r == Err(ReadLogEntries(w.log).error)
    ensures ReadLogEntries(w.log).Ok? ==> r == LoadFromEntries(w, ReadLogEntries(w.log).value, name, format, fullPath, logId, re)
  {
    var es :- ReadLogEntries(w.log);
    LoadFromEntries(w, es, name, format, fullPath, logId, re)
  }

  /** The branches of `load` once the log has been read: a full path, else a name or
      format, else a log id; with none of them the call raises `ValueError`. */
  function LoadFromEntries(w: World, es: seq<LogEntry>, name: Option<string>, format: Option<string>,
                           fullPath: Option<string>, logId: Option<string>, re: Regex): (r: Result<Payload>)
    ensures !Truthy(fullPath) && !Truthy(name) && !Truthy(format) && !Truthy(logId) ==> r == Err(ValueError)
  {
    if Truthy(fullPath) then LoadFromFullPath(w, fullPath.value)
    else if Truthy(name) || Truthy(format) then LoadFromNameAndFormat(w, es, name, format, re)
    else if Truthy(logId) then LoadFromLogId(w, es, logId.value)
    else Err(ValueError)
  }

  /** Argument priority: a full path decides alone, whatever else is passed; failing
      that, a name or format decides and the log id is ignored. */
  lemma Priority(w: World, name: Option<string>, format: Option<string>, fullPath: Option<string>,
                 logId: Option<string>, re: Regex,
                 name2: Option<string>, format2: Option<string>, logId2: Option<string>, re2: Regex)
    ensures Truthy(fullPath) ==>
      Load(w, name, format, fullPath, logId, re) == Load(w, name2, format2, fullPath, logId2, re2)
    ensures !Truthy(fullPath) && (Truthy(name) || Truthy(format)) ==>
      Load(w, name, format, fullPath, logId, re) == Load(w, name, format, None, logId2, re)
    ensures ReadLogEntries(w.log).Ok? && Truthy(fullPath) ==>
      Load(w, name, format, fullPath, logId, re) == LoadFromFullPath(w, fullPath.value)
  {
  }

  /** A file whose suffix is `p`, which is what `save` gives pickled objects, is
      refused with `ValueError` even though it exists. */
  lemma PickleSuffixRefused(w: World, p: string)
    requires FormatOf(p) == "p" && Exists(w, p)
    ensures LoadFromFullPath(w, p) == Err(ValueError)
  {
  }

  /** Loading by an id picks the newest entry with it, whatever came before. */
  lemma NewestById(w: World, es: seq<LogEntry>, e: LogEntry, re: Regex)
    requires ReadLogEntries(w.log) == Ok(es + [e]) && |e.logId| > 0
    ensures Load(w, None, None, None, Some(e.logId), re) == LoadFile(w, e.fullPath)
  {
    ByLogId(w, es + [e], e.logId, re);
    LogIdNewest(w, es, e);
  }

  /** Once the log reads, `load` with only an id takes the id branch. */
  lemma ByLogId(w: World, es: seq<LogEntry>, id: string, re: Regex)
    requires ReadLogEntries(w.log) == Ok(es) && |id| > 0
    ensures Load(w, None, None, None, Some(id), re) == LoadFromLogId(w, es, id)
  {
    assert Load(w, None, None, None, Some(id), re) == LoadFromEntries(w, es, None, None, None, Some(id), re);
  }

  /** The backward id scan lands on an appended entry. */
  lemma LogIdNewest(w: World, es: seq<LogEntry>, e: LogEntry)
    ensures LoadFromLogId(w, es + [e], e.logId) == LoadFile(w, e.fullPath)
  {
    var keep := (x: LogEntry) => x.logId == e.logId;
    LastWhereNewest(es, e, keep);
    assert (es + [e])[|es|] == e;
  }

  /** Loading by a name and format that the newest entry matches picks that entry. */
  lemma NewestByNameAndFormat(w: World, es: seq<LogEntry>, e: LogEntry, name: string, format: string, re: Regex)
    requires ReadLogEntries(w.log) == Ok(es + [e])
    requires |name| > 0 && re.compiles(name)
    requires Matches(e, Some(name), Some(format), re)
    ensures Load(w, Some(name), Some(format), None, None, re) == LoadFile(w, e.fullPath)
  {
    PickNewest(es, e, name, format, re);
  }

  /** The pick lands on an appended entry that matches. */
  lemma PickNewest(es: seq<LogEntry>, e: LogEntry, name: string, format: string, re: Regex)
    requires |name| > 0 && re.compiles(name)
    requires Matches(e, Some(name), Some(format), re)
    ensures PickByNameAndFormat(es + [e], Some(name), Some(format), re) == Ok(Some(|es|))
    ensures (es + [e])[|es|] == e
  {
    LastWhereNewest(es, e, (x: LogEntry) => Matches(x, Some(name), Some(format), re));
  }
}

=== FILE: paths.dfy ===
/** The pathlib operations the data handler uses on POSIX paths held as strings:
    `/` (join), `.name`, `.parent`, `.suffix`, `.stem`, and the directories
    `mkdir(parents=True)` creates. Paths are taken as written: pathlib's
    normalisation (".", trailing or doubled separators) is not modelled. */
module Paths {
  import opened Results
  import opened Text

  /** `Path(dir) / file` */
  function Join(dir: string, file: string): string {
    dir + "/" + file
  }

  /** `Path(p).name`: the final component. */
  function Name(p: string): (r: string)
    ensures '/' !in r
    ensures |r| <= |p| && r == p[|p| - |r|..]
  {
    match LastIndexOf(p, '/')
    case None => p
    case Some(k) => p[k + 1..]
  }

  /** `Path(p).parent`: everything before the final separator; "." for a bare name
      and "/" for a name directly under the root. */
  function Parent(p: string): (r: string)
    ensures |r| > 0
    ensures '/' in p && r != "/" ==> r + "/" + Name(p) == p
  {
    match LastIndexOf(p, '/')
    case None => "."
    case Some(k) =>
      if k == 0 then "/"
      else
        assert p[..k] + "/" + p[k + 1..] == p by {
          assert p == p[..k] + [p[k]] + p[k + 1..];
        }
        p[..k]
  }

  /** Index of the dot that starts the suffix of a final component: pathlib takes
      the last dot, unless it is the first or the last character. */
  function SuffixDot(name: string): (r: Option<nat>)
    ensures r.Some? ==> 0 < r.value < |name| - 1 && name[r.value] == '.' && '.' !in name[r.value + 1..]
  {
    match LastIndexOf(name, '.')
    case None => None
    case Some(i) => if 0 < i < |name| - 1 then Some(i) else None
  }

  /** The suffix of a final component, dot included, or "". */
  function NameSuffix(n: string): string {
    match SuffixDot(n)
    case None => ""
    case Some(i) => n[i..]
  }

  /** A final component without its suffix. */
  function NameStem(n: string): string {
    match SuffixDot(n)
    case None => n
    case Some(i) => n[..i]
  }

  /** `Path(p).suffix`: empty, or a dot followed by at least one character and no
      further dot, taken from the final component. */
  function Suffix(p: string): (r: string)
    ensures '/' !in r
    ensures |r| == 0 || (|r| >= 2 && r[0] == '.' && '.' !in r[1..])
  {
    NameSuffix(Name(p))
  }

  /** `Path(p).stem`: a non-empty start of the final component when that component
      is non-empty. */
  function Stem(p: string): (r: string)
    ensures '/' !in r
    ensures |r| <= |Name(p)| && r == Name(p)[..|r|]
    ensures |Name(p)| > 0 ==> |r| > 0
  {
    NameStem(Name(p))
  }

  /** `Path(p).suffix[1:]`: what both loaders call the file format of a path. */
  function FormatOf(p: string): (r: string)
    ensures '.' !in r && '/' !in r
  {
    var s := Suffix(p);
    if |s| == 0 then "" else s[1..]
  }

  /** The stem and the suffix together make up the final component, and a suffix is
      a dot followed by the format. */
  lemma StemSuffix(p: string)
    ensures Stem(p) + Suffix(p) == Name(p)
    ensures |Suffix(p)| == 0 || (Suffix(p)[0] == '.' && Suffix(p) == "." + FormatOf(p))
  {
    NameStemSuffix(Name(p));
  }

  lemma NameStemSuffix(n: string)
    ensures NameStem(n) + NameSuffix(n) == n
    ensures |NameSuffix(n)| == 0 || NameSuffix(n)[0] == '.'
  {
    match SuffixDot(n)
    case None =>
    case Some(i) =>
      assert n[..i] + n[i..] == n;
  }

  /** Joining a directory and a separator-free file name: the name and the parent come back. */
  lemma JoinParts(dir: string, file: string)
    requires |dir| > 0
    requires '/' !in file
    ensures Name(Join(dir, file)) == file
    ensures Parent(Join(dir, file)) == dir
  {
    var p := Join(dir, file);
    assert p[|dir|] == '/';
    assert p[|dir| + 1..] == file;
    assert LastIndexOf(p, '/') == Some(|dir|);
    assert p[..|dir|] == dir;
  }

  /** The last dot of `stem.ext` is the one before `ext`, and no separator appears. */
  lemma FileNameDot(stem: string, ext: string)
    requires '/' !in stem && '/' !in ext && '.' !in ext
    ensures LastIndexOf(stem + "." + ext, '.') == Some(|stem|)
    ensures '/' !in stem + "." + ext
  {
    var n := stem + ("." + ext);
    assert n == stem + "." + ext;
    assert n[|stem|] == '.';
    assert n[|stem| + 1..] == ext;
    LastIndexOfAt(n, '.', |stem|);
  }

  /** A file named `stem.ext` has stem `stem` and format `ext`, provided the stem
      is not empty and the extension is a non-empty run without dots. */
  lemma StemAndFormat(dir: string, stem: string, ext: string)
    requires |dir| > 0
    requires |stem| > 0 && |ext| > 0
    requires '/' !in stem && '/' !in ext && '.' !in ext
    ensures Stem(Join(dir, stem + "." + ext)) == stem
    ensures FormatOf(Join(dir, stem + "." + ext)) == ext
    ensures Parent(Join(dir, stem + "." + ext)) == dir
  {
    var p := Join(dir, stem + "." + ext);
    FileInDir(dir, stem, ext);
    SuffixDotOfFileName(stem, ext);
    NamedStemSuffix(p, stem, ext);
    FormatOfSuffix(p, ext);
  }

  lemma FileInDir(dir: string, stem: string, ext: string)
    requires |dir| > 0
    requires '/' !in stem && '/' !in ext && '.' !in ext
    ensures Name(Join(dir, stem + "." + ext)) == stem + "." + ext
    ensures Parent(Join(dir, stem + "." + ext)) == dir
  {
    FileNameDot(stem, ext);
    JoinParts(dir, stem + "." + ext);
  }

  lemma NamedStemSuffix(p: string, stem: string, ext: string)
    requires Name(p) == stem + "." + ext
    requires SuffixDot(stem + "." + ext) == Some(|stem|)
    ensures Stem(p) == stem && Suffix(p) == "." + ext
  {
    DottedName(stem + "." + ext, stem, ext);
  }

  lemma DottedName(n: string, stem: string, ext: string)
    requires n == stem + "." + ext
    requires SuffixDot(n) == Some(|stem|)
    ensures NameStem(n) == stem && NameSuffix(n) == "." + ext
  {
    assert n[..|stem|] == stem;
    assert n[|stem|..] == "." + ext;
  }

  lemma FormatOfSuffix(p: string, ext: string)
    requires Suffix(p) == "." + ext
    ensures FormatOf(p) == ext
  {
    assert ("." + ext)[1..] == ext;
  }

  lemma SuffixDotOfFileName(stem: string, ext: string)
    requires |stem| > 0 && |ext| > 0
    requires '/' !in stem && '/' !in ext && '.' !in ext
    ensures SuffixDot(stem + "." + ext) == Some(|stem|)
  {
    FileNameDot(stem, ext);
  }

  /** `Path(p).mkdir(parents=True, exist_ok=True)` creates `p` and every missing
      ancestor below the root; all of them are prefixes of `p`. */
  function Ancestors(p: string): (r: set<string>)
    ensures p in r
    ensures forall a :: a in r ==> IsPrefix(a, p)
    decreases |p|
  {
    match LastIndexOf(p, '/')
    case None => {p}
    case Some(k) =>
      if k == 0 then {p}
      else
        var up := Ancestors(p[..k]);
        assert forall a :: a in up ==> IsPrefix(a, p) by {
          forall a | a in up ensures IsPrefix(a, p) {
            assert p[..k][..|a|] == p[..|a|];
          }
        }
        {p} + up
  }

  /** The directories above a path never include the path itself, except for the
      two paths that are their own parent, "." and "/". */
  lemma NotOwnAncestor(p: string)
    ensures p == Parent(p) || p !in Ancestors(Parent(p))
  {
    match LastIndexOf(p, '/')
    case None =>
      assert LastIndexOf(".", '/') == None;
    case Some(k) =>
      if k == 0 {
        assert LastIndexOf("/", '/') == Some(0);
      } else {
        assert |Parent(p)| < |p|;
      }
  }
}

=== FILE: payloads.dfy ===
/** The objects the data handler saves and loads, and the part of the file system it
    touches. Cell values, figures and other Python objects are never inspected, so
    they are opaque tokens; what matters is their shape and what survives a trip
    through each file format. */
module Payloads {
  import opened Results
  import opened Paths

  /** Row labels: pandas' default 0..n-1 range, or labels a caller set. */
  datatype RowIndex = RangeIndex | Labelled(labels: nat)

  /** Column labels and cell values of a table. A series turned into a table keeps
      its name as the single column label. */
  datatype Cells = Grid(token: nat) | SingleColumn(name: string, values: nat)

  /** A `pd.DataFrame`. */
  datatype Frame = Frame(cells: Cells, index: RowIndex)

  /** A `pd.Series`. */
  datatype Series = Series(name: string, values: nat, index: RowIndex)

  /** A `plt.Figure`. */
  datatype Figure = Figure(drawing: nat)

  /** Everything `save` can be handed: the four shapes it knows and anything else. */
  datatype Payload =
    | Table(frame: Frame)
    | Column(series: Series)
    | Mapping(items: seq<Item>)    // a dict, in insertion order
    | Chart(figure: Figure)
    | Other(token: nat)            // any other Python object, e.g. a plain number

  datatype Item = Item(key: string, value: Payload)

  /** `series.to_frame()` */
  function ToFrame(s: Series): (f: Frame)
    ensures f.cells.SingleColumn? && f.cells.name == s.name && f.index == s.index
  {
    Frame(SingleColumn(s.name, s.values), s.index)
  }

  /** What a table written with `index=False` reads back as: the same cells under
      a fresh default index. */
  function WithoutIndex(f: Frame): (r: Frame)
    ensures r.cells == f.cells && r.index == RangeIndex
  {
    f.(index := RangeIndex)
  }

  /** Size of a payload, counting nested mappings; only used to justify recursion. */
  function Size(p: Payload): (n: nat)
    ensures n >= 1
  {
    match p
    case Mapping(items) => 1 + ItemsSize(items)
    case _ => 1
  }

  function ItemsSize(items: seq<Item>): nat {
    if |items| == 0 then 0 else Size(items[0].value) + ItemsSize(items[1..])
  }

  // ---------------------------------------------------------------------------
  // The file system
  // ---------------------------------------------------------------------------

  /** One sheet of a workbook. */
  datatype Sheet = Sheet(name: string, frame: Frame)

  /** What a file holds, by the writer that produced it. */
  datatype FileContent =
    | CsvFile(table: Frame)                    // `to_csv(index=False)`
    | ExcelFile(sheets: seq<Sheet>)            // `to_excel` / `ExcelWriter`, sheets in order
    | PickleFile(pickled: Payload)              // `pickle.dump`: the object itself
    | ImageFile(figure: Figure, kind: string)  // `savefig`, in the format its extension names

  /** The directories and files that exist, and the text of `file_log.log`
      (None while that file does not exist). */
  datatype World = World(dirs: set<string>, files: map<string, FileContent>, log: Option<string>)

  /** `os.path.exists(p)` / `Path(p).exists()`: a path that does not exist cannot be
      opened, and one that exists, with nothing but directories above it, does not
      fail to open for being missing. */
  predicate Exists(w: World, p: string): (r: bool)
    ensures !r ==> Read(w, p).Err?
    ensures r && !UnderFile(w, p) ==> Read(w, p) != Err(FileNotFoundError)
  {
    p in w.dirs || p in w.files
  }

  /** Some directory on the way to `p` is a regular file, so the operating system
      cannot resolve `p` and raises `NotADirectoryError`. */
  predicate UnderFile(w: World, p: string) {
    exists a :: a in Ancestors(Parent(p)) && a in w.files
  }

  /** `Path(d).mkdir(parents=True, exist_ok=True)` */
  function MakeDirs(w: World, d: string): (r: World)
    ensures d in r.dirs
    ensures w.dirs <= r.dirs && r.files == w.files && r.log == w.log
  {
    w.(dirs := w.dirs + Ancestors(d))
  }

  /** Whether opening `p` for writing would succeed: every directory above it is
      one, `p` itself is not a directory, and its parent exists. A path that can be
      opened is never one of the directories above itself. */
  function Writable(w: World, p: string): (r: Outcome)
    ensures r == Pass <==> !UnderFile(w, p) && p !in w.dirs && Parent(p) in w.dirs
    ensures r == Pass ==> p !in Ancestors(Parent(p))
  {
    if UnderFile(w, p) then Fail(NotADirectoryError)
    else if p in w.dirs then Fail(IsADirectoryError)
    else if Parent(p) !in w.dirs then Fail(FileNotFoundError)
    else
      NotOwnAncestor(p);
      Pass
  }

  /** Whether a pandas writer (`to_csv`, `to_excel`, `ExcelWriter`) can open `p`. Before
      it opens the target, pandas checks that the parent is a directory and raises
      `OSError` when it is missing or is, or lies below, a regular file; only then does
      opening a directory raise `IsADirectoryError`. The two ways of opening agree on
      when a write succeeds and differ only in the error they raise. */
  function PandasWritable(w: World, p: string): (r: Outcome)
    ensures r == Pass <==> Writable(w, p) == Pass
    ensures r == Fail(OSError) <==> UnderFile(w, p) || Parent(p) !in w.dirs
    ensures r == Fail(IsADirectoryError) <==> !UnderFile(w, p) && Parent(p) in w.dirs && p in w.dirs
  {
    if UnderFile(w, p) || Parent(p) !in w.dirs then Fail(OSError)
    else if p in w.dirs then Fail(IsADirectoryError)
    else Pass
  }

  /** Who opens a write target: Python's `open` (pickle files, `savefig`) or a pandas
      writer. */
  datatype Opener = Builtin | Pandas

  /** Opening `p` for writing the way `opener` opens it. */
  function Opens(w: World, p: string, opener: Opener): (r: Outcome)
    ensures r == Pass <==> Writable(w, p) == Pass
  {
    match opener
    case Builtin => Writable(w, p)
    case Pandas => PandasWritable(w, p)
  }

  /** Writing (or overwriting) one file. */
  function Store(w: World, p: string, c: FileContent): (r: World)
    ensures r.files == w.files[p := c] && r.dirs == w.dirs && r.log == w.log
  {
    w.(files := w.files[p := c])
  }

  /** Opening `p` for reading: the contents, or the error the operating system
      raises for a path through a regular file, a directory, or a missing file. */
  function Read(w: World, p: string): (r: Result<FileContent>)
    ensures r.Ok? <==> !UnderFile(w, p) && p in w.files && p !in w.dirs
    ensures r.Ok? ==> r.value == w.files[p]
    ensures r == Err(NotADirectoryError) <==> UnderFile(w, p)
    ensures r == Err(FileNotFoundError) <==> !UnderFile(w, p) && p !in w.dirs && p !in w.files
  {
    if UnderFile(w, p) then Err(NotADirectoryError)
    else if p in w.dirs then Err(IsADirectoryError)
    else if p in w.files then Ok(w.files[p])
    else Err(FileNotFoundError)
  }
}

=== FILE: readers.dfy ===
/** Turning a file back into an object, as both loaders do: `pd.read_csv`,
    `_load_excel` and `pickle.load`, chosen by a format string. The libraries
    themselves are not modelled: a file reads back as what its writer put there,
    and a file whose contents the chosen reader cannot make sense of raises
    `ReaderError`. */
module Readers {
  import opened Results
  import opened Payloads
  import opened Writers

  /** The formats both loaders can read. */
  predicate Readable(format: string) {
    format == "csv" || format == "xlsx" || format == "pickle"
  }

  /** `_load_excel`: `pd.read_excel(sheet_name=None)` yields every sheet by name; a
      workbook of exactly one sheet collapses to that sheet's table. */
  function LoadExcel(sheets: seq<Sheet>): (r: Payload)
    ensures |sheets| == 1 <==> r.Table?
    ensures |sheets| != 1 ==> r.Mapping? && |r.items| == |sheets|
  {
    if |sheets| == 1 then Table(sheets[0].frame) else Mapping(SheetItems(sheets))
  }

  /** The sheet-name to table mapping, in workbook order. */
  function SheetItems(sheets: seq<Sheet>): (r: seq<Item>)
    ensures |r| == |sheets|
    ensures forall i :: 0 <= i < |sheets| ==> r[i] == Item(sheets[i].name, Table(sheets[i].frame))
  {
    if |sheets| == 0 then [] else [Item(sheets[0].name, Table(sheets[0].frame))] + SheetItems(sheets[1..])
  }

  /** Reading the file at `p` as `format`: an unsupported format raises `ValueError`
      without opening anything; otherwise opening may fail, and the contents must be
      of the kind the reader expects. */
  function ReadAs(w: World, p: string, format: string): (r: Result<Payload>)
    ensures !Readable(format) ==> r == Err(ValueError)
    ensures Readable(format) && Read(w, p).Err? ==> r == Err(Read(w, p).error)
    ensures r.Ok? ==> Readable(format) && p in w.files
  {
    if !Readable(format) then Err(ValueError)
    else
      var content :- Read(w, p);
      match content
      case CsvFile(t) => if format == "csv" then Ok(Table(t)) else Err(ReaderError)
      case ExcelFile(sheets) => if format == "xlsx" then Ok(LoadExcel(sheets)) else Err(ReaderError)
      case PickleFile(obj) => if format == "pickle" then Ok(obj) else Err(ReaderError)
      case ImageFile(_, _) => Err(ReaderError)
  }

  /** What an object saved as `format` reads back as: csv and xlsx keep a table's
      cells under a fresh index (a series comes back as a one-column table), while
      pickle keeps the object itself. */
  function Restored(obj: Payload, format: string): Payload
    requires obj.Table? || obj.Column?
  {
    if format == "pickle" then obj
    else if obj.Table? then Table(WithoutIndex(obj.frame))
    else Table(WithoutIndex(ToFrame(obj.series)))
  }

  /** Reading back, in the same format, the file the frame or series writer
      just wrote gives the restored object. */
  lemma ReadWritten(w: World, obj: Payload, p: string, format: string)
    requires obj.Table? || obj.Column?
    requires Readable(format)
    requires Dispatch(w, obj, p, format).outcome.Pass?
    ensures ReadAs(Dispatch(w, obj, p, format).world, p, format) == Ok(Restored(obj, format))
  {
  }

  /** Reading back a workbook of several sheets (or none) and writing its tables out
      again as sheets gives the same sheets, provided they carry the default index, as
      every sheet the writers produce does. */
  lemma {:induction false} SheetItemsBack(sheets: seq<Sheet>)
    requires forall i :: 0 <= i < |sheets| ==> sheets[i].frame.index == RangeIndex
    ensures SheetsOf(SheetItems(sheets)) == sheets
    decreases |sheets|
  {
    if |sheets| > 0 {
      SheetItemsBack(sheets[1..]);
      assert SheetItems(sheets)[1..] == SheetItems(sheets[1..]);
      assert WithoutIndex(sheets[0].frame) == sheets[0].frame;
      assert [sheets[0]] + sheets[1..] == sheets;
    }
  }
}

=== FILE: results.dfy ===
/** Failure-compatible result types and the exception kinds the data handler raises. */
module Results {

  /** The Python exception classes a call can end with. */
  datatype Error =
    | TypeError          // unsupported payload type, or `in` applied to None
    | ValueError         // unsupported format, invalid mapping, malformed log line, missing arguments
    | FileNotFoundError  // missing file, directory, log file, log entry or glob match
    | IsADirectoryError  // a file operation aimed at an existing directory
    | NotADirectoryError // a path that runs through a regular file as if it were a directory
    | OSError            // pandas found that the parent of a write target is not a directory
    | PatternError       // `re.error`: the name is not a valid regular expression
    | ReaderError        // a foreign reader (pandas, pickle) rejected the file's contents

  datatype Option<+T> = None | Some(value: T) {
    function GetOr(default: T): T {
      match this
      case Some(v) => v
      case None => default
    }
  }

  /** A value or the exception that replaced it. */
  datatype Result<+T> = Ok(value: T) | Err(error: Error) {
    predicate IsFailure() {
      Err?
    }

    function PropagateFailure<U>(): Result<U>
      requires Err?
    {
      Err(error)
    }

    function Extract(): T
      requires Ok?
    {
      value
    }
  }

  /** The outcome of a call that returns `None` in Python: it finished, or it raised. */
  datatype Outcome = Pass | Fail(error: Error) {
    predicate IsFailure() {
      Fail?
    }

    function PropagateFailure<U>(): Result<U>
      requires Fail?
    {
      Err(error)
    }
  }

  /** Python truthiness of an optional string argument: None and "" are both false. */
  predicate Truthy(o: Option<string>) {
    o.Some? && |o.value| > 0
  }
}

=== FILE: save.dfy ===
/** The packaged `save`: create the directory, build the file name (optionally
    prefixed with the time of the call), append `id,timestamp,path` to the file log,
    and only then hand the object to the writer for its shape. The clock and the
    UUID generator are parameters: `timestamp` is the already formatted time and
    `logId` the text of the fresh UUID. */
module Save {
  import opened Results
  import opened Text
  import opened Paths
  import opened Payloads
  import opened FileLog
  import opened Writers

  /** The stem of the file: the name, after the time and an underscore when a
      timestamp is asked for. */
  function FileName(name: string, addTimestamp: bool, timestamp: string): (r: string)
    ensures addTimestamp ==> IsPrefix(timestamp + "_", r) && r[|timestamp| + 1..] == name
    ensures !addTimestamp ==> r == name
  {
    if addTimestamp then timestamp + "_" + name else name
  }

  /** Where `save` writes: directly under the directory, a file named by the stem
      and the format's extension. */
  function FullPath(dir: string, name: string, format: string, addTimestamp: bool, timestamp: string): (r: string)
    ensures IsPrefix(dir + "/", r)
    ensures |r| == |dir| + |FileName(name, addTimestamp, timestamp)| + |Extension(format)| + 2
    ensures r[|r| - |Extension(format)| - 1..] == "." + Extension(format)
    ensures r[|dir| + 1..|dir| + 1 + |FileName(name, addTimestamp, timestamp)|] == FileName(name, addTimestamp, timestamp)
  {
    Join(dir, FileName(name, addTimestamp, timestamp) + "." + Extension(format))
  }

  /** The entry one call appends to the log: its id, its time, and the path, whose
      file name starts with that same time when a timestamp is asked for. */
  function EntryOf(dir: string, name: string, format: string, addTimestamp: bool, timestamp: string, logId: string): (r: LogEntry)
    ensures r.logId == logId && r.timestamp == timestamp
    ensures addTimestamp ==> IsPrefix(dir + "/" + timestamp + "_", r.fullPath)
  {
    var full := FullPath(dir, name, format, addTimestamp, timestamp);
    TimestampedPath(dir, name, format, addTimestamp, timestamp);
    LogEntry(logId, timestamp, full)
  }

  lemma TimestampedPath(dir: string, name: string, format: string, addTimestamp: bool, timestamp: string)
    ensures addTimestamp ==> IsPrefix(dir + "/" + timestamp + "_", FullPath(dir, name, format, addTimestamp, timestamp))
  {
    if addTimestamp {
      var head := dir + "/" + timestamp + "_";
      var full := head + (name + "." + Extension(format));
      assert FullPath(dir, name, format, addTimestamp, timestamp) == full;
      assert full[..|head|] == head;
    }
  }

  /** `save(obj, file_name, file_format, file_path, add_timestamp)`. Whatever the
      outcome, the directory exists afterwards and the log has grown by the record
      of this call. */
  function Save(w: World, obj: Payload, name: string, format: string, dir: string,
                addTimestamp: bool, timestamp: string, logId: string): (r: Effect)
    ensures dir in r.world.dirs
    ensures r.world.log == Append(w.log, EntryOf(dir, name, format, addTimestamp, timestamp, logId))
  {
    var w1 := MakeDirs(w, dir);
    var full := FullPath(dir, name, format, addTimestamp, timestamp);
    var w2 := w1.(log := Append(w1.log, LogEntry(logId, timestamp, full)));
    DispatchLogFree(w1, obj, full, format, w2.log);
    Dispatch(w2, obj, full, format)
  }

  /** A call the acceptance table rejects still creates the directory and leaves its
      log line; it raises the table's error and writes no file. */
  lemma RejectedSaveStillLogs(w: World, obj: Payload, name: string, format: string, dir: string,
                              addTimestamp: bool, timestamp: string, logId: string)
    requires Verdict(obj, format).Fail?
    ensures var r := Save(w, obj, name, format, dir, addTimestamp, timestamp, logId);
      && r.outcome == Verdict(obj, format)
      && r.world.files == w.files
      && r.world.log == Append(w.log, EntryOf(dir, name, format, addTimestamp, timestamp, logId))
  {
    var w1 := MakeDirs(w, dir);
    var full := FullPath(dir, name, format, addTimestamp, timestamp);
    DispatchFollowsVerdict(w1.(log := Append(w1.log, LogEntry(logId, timestamp, full))), obj, full, format);
  }

  /** A frame saved as csv whose file would land in a directory that does not exist
      after `mkdir` (a name with a separator, say) raises pandas' `OSError` and writes
      no file; the log line has been written all the same. */
  lemma MissingSubdirectoryRaises(w: World, f: Frame, name: string, dir: string,
                                  addTimestamp: bool, timestamp: string, logId: string)
    requires Parent(FullPath(dir, name, "csv", addTimestamp, timestamp)) !in MakeDirs(w, dir).dirs
    ensures var r := Save(w, Table(f), name, "csv", dir, addTimestamp, timestamp, logId);
      && r.outcome == Fail(OSError) && r.world.files == w.files
      && r.world.log == Append(w.log, EntryOf(dir, name, "csv", addTimestamp, timestamp, logId))
  {
  }

  /** `save(df, "sub/x", "csv", "out", add_timestamp=False)` on an empty disk: `out` is
      created but `out/sub` is not, so the call raises `OSError` after logging. */
  lemma NameWithSeparatorRaises(f: Frame, timestamp: string, logId: string)
    ensures var r := Save(World({}, map[], None), Table(f), "sub/x", "csv", "out", false, timestamp, logId);
      r.outcome == Fail(OSError) && r.world.files == map[] && r.world.log.Some?
  {
    SubdirectoryPath(timestamp);
    assert "out/sub" !in Ancestors("out");
    MissingSubdirectoryRaises(World({}, map[], None), f, "sub/x", "out", false, timestamp, logId);
  }

  lemma SubdirectoryPath(timestamp: string)
    ensures Parent(FullPath("out", "sub/x", "csv", false, timestamp)) == "out/sub"
  {
    assert FullPath("out", "sub/x", "csv", false, timestamp) == Join("out/sub", "x.csv");
    assert '/' !in "x.csv";
    JoinParts("out/sub", "x.csv");
  }

  /** The log read back after a call holds the entries it held before and then this
      call's entry, whether or not the call raised, provided the UUID, the time and
      the path contain no comma or line break and the log ended at a line boundary. */
  lemma SaveAppendsOneEntry(w: World, obj: Payload, name: string, format: string, dir: string,
                            addTimestamp: bool, timestamp: string, logId: string)
    requires Clean(EntryOf(dir, name, format, addTimestamp, timestamp, logId))
    requires w.log.Some? ==> EndsLine(w.log.value)
    ensures var e := EntryOf(dir, name, format, addTimestamp, timestamp, logId);
      var after := ReadLogEntries(Save(w, obj, name, format, dir, addTimestamp, timestamp, logId).world.log);
      after == if w.log.None? then Ok([e])
               else if ReadLogEntries(w.log).Ok? then Ok(ReadLogEntries(w.log).value + [e])
               else Err(ValueError)
  {
    AppendThenRead(w.log, EntryOf(dir, name, format, addTimestamp, timestamp, logId));
  }

  /** The logged path names the file the call writes: its directory is `dir`, its
      stem is the file name (so a timestamped stem starts with the same timestamp the
      log line carries) and its suffix is the extension, `p` for pickle. */
  lemma LoggedPathParts(dir: string, name: string, format: string, addTimestamp: bool, timestamp: string)
    requires |dir| > 0 && |format| > 0
    requires |FileName(name, addTimestamp, timestamp)| > 0
    requires '/' !in name && '/' !in timestamp
    requires '/' !in format && '.' !in format
    ensures var full := FullPath(dir, name, format, addTimestamp, timestamp);
      && Parent(full) == dir
      && Stem(full) == FileName(name, addTimestamp, timestamp)
      && FormatOf(full) == Extension(format)
  {
    var stem := FileName(name, addTimestamp, timestamp);
    FileNameNoSeparator(name, addTimestamp, timestamp);
    StemAndFormat(dir, stem, Extension(format));
  }

  lemma FileNameNoSeparator(name: string, addTimestamp: bool, timestamp: string)
    requires '/' !in name && '/' !in timestamp
    ensures '/' !in FileName(name, addTimestamp, timestamp)
  {
    if addTimestamp {
      assert FileName(name, addTimestamp, timestamp) == timestamp + ("_" + name);
    }
  }
}

=== FILE: text.dfy ===
/** The few pieces of Python string behaviour the data handler relies on:
    `str.strip()`, `str.split(',')`, iteration over the lines of a text file,
    and the substring test `a in b`. */
module Text {
  import opened Results

  /** Python's `str.isspace()` for one character. */
  predicate IsSpace(c: char) {
    || ('\t' <= c <= '\r')
    || ('\U{1c}' <= c <= ' ')
    || c == '\U{85}' || c == '\U{a0}' || c == '\U{1680}'
    || ('\U{2000}' <= c <= '\U{200a}')
    || c == '\U{2028}' || c == '\U{2029}' || c == '\U{202f}' || c == '\U{205f}' || c == '\U{3000}'
  }

  /** `s.lstrip()` */
  function StripLeft(s: string): (r: string)
    ensures |r| <= |s| && r == s[|s| - |r|..]
    ensures |r| == 0 || !IsSpace(r[0])
  {
    if |s| > 0 && IsSpace(s[0]) then StripLeft(s[1..]) else s
  }

  /** `s.rstrip()` */
  function StripRight(s: string): (r: string)
    ensures |r| <= |s| && r == s[..|r|]
    ensures |r| == 0 || !IsSpace(r[|r| - 1])
  {
    if |s| > 0 && IsSpace(s[|s| - 1]) then StripRight(s[..|s| - 1]) else s
  }

  /** `s.strip()`: the longest slice of `s` that neither starts nor ends with white space. */
  function Strip(s: string): (r: string)
    ensures Trimmed(r)
    ensures |r| <= |s|
    ensures Trimmed(s) ==> r == s
  {
    StripRight(StripLeft(s))
  }

  /** `lstrip` removes white space and nothing else. */
  lemma {:induction false} StripLeftSpace(s: string)
    ensures forall i :: 0 <= i < |s| - |StripLeft(s)| ==> IsSpace(s[i])
    decreases |s|
  {
    if |s| > 0 && IsSpace(s[0]) {
      StripLeftSpace(s[1..]);
      forall i | 1 <= i < |s| - |StripLeft(s)|
        ensures IsSpace(s[i])
      {
        assert s[i] == s[1..][i - 1];
      }
    }
  }

  /** `rstrip` removes white space and nothing else. */
  lemma {:induction false} StripRightSpace(s: string)
    ensures forall i :: |StripRight(s)| <= i < |s| ==> IsSpace(s[i])
    decreases |s|
  {
    if |s| > 0 && IsSpace(s[|s| - 1]) {
      StripRightSpace(s[..|s| - 1]);
      forall i | |StripRight(s)| <= i < |s| - 1
        ensures IsSpace(s[i])
      {
        assert s[i] == s[..|s| - 1][i];
      }
    }
  }

  /** A string that neither starts nor ends with white space, so `strip()` leaves it alone. */
  predicate Trimmed(s: string) {
    |s| == 0 || (!IsSpace(s[0]) && !IsSpace(s[|s| - 1]))
  }

  /** `sep.join(fields)` for a one-character separator. */
  function JoinWith(fields: seq<string>, sep: char): string
    requires |fields| >= 1
  {
    if |fields| == 1 then fields[0] else fields[0] + [sep] + JoinWith(fields[1..], sep)
  }

  /** `s.split(sep)` for a one-character separator: never an empty list. */
  function Split(s: string, sep: char): (r: seq<string>)
    ensures |r| >= 1
  {
    if |s| == 0 then [""]
    else
      var rest := Split(s[1..], sep);
      if s[0] == sep then [""] + rest
      else [[s[0]] + rest[0]] + rest[1..]
  }

  /** A split has one field more than the string has separators. */
  lemma {:induction false} SplitCount(s: string, sep: char)
    ensures |Split(s, sep)| == multiset(s)[sep] + 1
    decreases |s|
  {
    if |s| > 0 {
      SplitCount(s[1..], sep);
      assert s == [s[0]] + s[1..];
    }
  }

  /** No field of a split holds the separator. */
  lemma {:induction false} SplitFields(s: string, sep: char)
    ensures forall i :: 0 <= i < |Split(s, sep)| ==> sep !in Split(s, sep)[i]
    decreases |s|
  {
    if |s| > 0 {
      var rest := Split(s[1..], sep);
      SplitFields(s[1..], sep);
      if s[0] != sep {
        var r := [[s[0]] + rest[0]] + rest[1..];
        assert forall i :: 1 <= i < |r| ==> r[i] == rest[i];
      }
    }
  }

  /** Joining the fields of a split back with the separator gives the string. */
  lemma {:induction false} SplitThenJoin(s: string, sep: char)
    ensures JoinWith(Split(s, sep), sep) == s
    decreases |s|
  {
    if |s| > 0 {
      var rest := Split(s[1..], sep);
      SplitThenJoin(s[1..], sep);
      if s[0] == sep {
        assert [sep] + JoinWith(rest, sep) == s;
      } else {
        var r := [[s[0]] + rest[0]] + rest[1..];
        assert JoinWith(r, sep) == [s[0]] + JoinWith(rest, sep) by {
          if |rest| > 1 {
            assert r[1..] == rest[1..];
          }
        }
        assert [s[0]] + s[1..] == s;
      }
    }
  }

  lemma {:induction false} SplitPrefix(a: string, t: string, sep: char)
    requires sep !in a
    ensures Split(a + t, sep) == [a + Split(t, sep)[0]] + Split(t, sep)[1..]
    decreases |a|
  {
    if |a| > 0 {
      SplitPrefix(a[1..], t, sep);
      assert (a + t)[1..] == a[1..] + t;
      assert [a[0]] + (a[1..] + Split(t, sep)[0]) == a + Split(t, sep)[0];
    } else {
      var st := Split(t, sep);
      assert a + t == t;
      assert a + st[0] == st[0];
      assert [st[0]] + st[1..] == st;
    }
  }

  lemma SplitAfterSep(tail: string, rest: seq<string>, sep: char)
    requires Split(tail, sep) == rest
    ensures Split([sep] + tail, sep) == [""] + rest
  {
    assert ([sep] + tail)[1..] == tail;
  }

  lemma SplitFieldThenSep(field: string, tail: string, rest: seq<string>, sep: char)
    requires sep !in field
    requires Split(tail, sep) == rest
    ensures Split(field + [sep] + tail, sep) == [field] + rest
  {
    SplitAfterSep(tail, rest, sep);
    SplitPrefix(field, [sep] + tail, sep);
    assert field + [sep] + tail == field + ([sep] + tail);
    assert field + "" == field;
  }

  /** Splitting undoes joining whenever no field contains the separator. */
  lemma {:induction false} SplitJoin(fields: seq<string>, sep: char)
    requires |fields| >= 1
    requires forall i :: 0 <= i < |fields| ==> sep !in fields[i]
    ensures Split(JoinWith(fields, sep), sep) == fields
    decreases |fields|
  {
    if |fields| == 1 {
      SplitPrefix(fields[0], "", sep);
      assert fields[0] + "" == fields[0];
    } else {
      SplitJoin(fields[1..], sep);
      SplitFieldThenSep(fields[0], JoinWith(fields[1..], sep), fields[1..], sep);
      assert [fields[0]] + fields[1..] == fields;
    }
  }

  /** Index of the last occurrence of `c` in `s`, like `s.rfind(c)` without the -1. */
  function LastIndexOf(s: string, c: char): (r: Option<nat>)
    ensures r.None? <==> c !in s
    ensures r.Some? ==> r.value < |s| && s[r.value] == c && c !in s[r.value + 1..]
  {
    if |s| == 0 then None
    else if s[|s| - 1] == c then Some(|s| - 1)
    else
      var r := LastIndexOf(s[..|s| - 1], c);
      assert s == s[..|s| - 1] + [s[|s| - 1]];
      if r.Some? then
        assert s[r.value + 1..] == s[..|s| - 1][r.value + 1..] + [s[|s| - 1]];
        r
      else r
  }

  /** An occurrence with none after it is the last one. */
  lemma {:induction false} LastIndexOfAt(s: string, c: char, i: nat)
    requires i < |s| && s[i] == c && c !in s[i + 1..]
    ensures LastIndexOf(s, c) == Some(i)
    decreases |s|
  {
    if i < |s| - 1 {
      assert s[i + 1..] == s[..|s| - 1][i + 1..] + [s[|s| - 1]];
      LastIndexOfAt(s[..|s| - 1], c, i);
    }
  }

  /** The lines a Python text file yields when iterated, without their line
      terminators: `""` has no lines, and a final `'\n'` does not open a new one. */
  function Lines(s: string): (r: seq<string>)
    ensures |s| > 0 <==> |r| > 0
    ensures |r| <= |s|
  {
    if |s| == 0 then []
    else
      var rest := Lines(s[1..]);
      if s[0] == '\n' then [""] + rest
      else if |rest| == 0 then [[s[0]]]
      else [[s[0]] + rest[0]] + rest[1..]
  }

  /** The text of a file whose lines are `ls`, each written with its terminator. */
  function Unlines(ls: seq<string>): string {
    if |ls| == 0 then "" else ls[0] + "\n" + Unlines(ls[1..])
  }

  /** A text that is empty or ends in a line terminator: appending to it starts a new line. */
  predicate EndsLine(s: string) {
    |s| == 0 || s[|s| - 1] == '\n'
  }

  /** A first character that is not a terminator joins the first line of the rest. */
  lemma LinesCons(c: char, rest: string)
    requires c != '\n' && |rest| > 0
    ensures Lines([c] + rest) == [[c] + Lines(rest)[0]] + Lines(rest)[1..]
  {
    assert ([c] + rest)[1..] == rest;
  }

  /** A line terminator first opens an empty line before the lines of the rest. */
  lemma LinesNewline(rest: string)
    ensures Lines(['\n'] + rest) == [""] + Lines(rest)
  {
    assert (['\n'] + rest)[1..] == rest;
  }

  /** One step of `LinesConcat`: putting a character in front keeps the split at the boundary. */
  lemma LinesConcatCons(c: char, rest: string, b: string)
    requires c == '\n' || |rest| > 0
    requires Lines(rest + b) == Lines(rest) + Lines(b)
    ensures Lines([c] + rest + b) == Lines([c] + rest) + Lines(b)
  {
    assert [c] + rest + b == [c] + (rest + b);
    if c == '\n' {
      LinesNewline(rest);
      LinesNewline(rest + b);
    } else {
      LinesConsConcat(c, Lines(rest), Lines(b), rest, b);
    }
  }

  lemma LinesConsConcat(c: char, la: seq<string>, lb: seq<string>, rest: string, b: string)
    requires c != '\n' && |rest| > 0
    requires la == Lines(rest) && lb == Lines(b)
    requires Lines(rest + b) == la + lb
    ensures Lines([c] + (rest + b)) == Lines([c] + rest) + lb
  {
    LinesCons(c, rest);
    LinesCons(c, rest + b);
    HeadJoin([c], la, lb);
  }

  /** Extending the first of a non-empty run of lines, then appending more lines. */
  lemma HeadJoin(pre: string, la: seq<string>, lb: seq<string>)
    requires |la| > 0
    ensures [pre + (la + lb)[0]] + (la + lb)[1..] == ([pre + la[0]] + la[1..]) + lb
  {
    assert (la + lb)[0] == la[0];
    assert (la + lb)[1..] == la[1..] + lb;
  }

  /** Lines of a concatenation split at a line boundary. */
  lemma {:induction false} LinesConcat(a: string, b: string)
    requires EndsLine(a)
    ensures Lines(a + b) == Lines(a) + Lines(b)
    decreases |a|
  {
    if |a| == 0 {
      assert a + b == b;
    } else {
      var rest := a[1..];
      assert EndsLine(rest) by {
        if |rest| > 0 {
          assert rest[|rest| - 1] == a[|a| - 1];
        }
      }
      LinesConcat(rest, b);
      LinesConcatCons(a[0], rest, b);
      assert [a[0]] + rest == a;
    }
  }

  /** Reading back the lines of a file written line by line gives those lines. */
  lemma {:induction false} LinesUnlines(ls: seq<string>)
    requires forall i :: 0 <= i < |ls| ==> '\n' !in ls[i]
    ensures Lines(Unlines(ls)) == ls
    decreases |ls|
  {
    if |ls| > 0 {
      LinesOfLine(ls[0]);
      LinesConcat(ls[0] + "\n", Unlines(ls[1..]));
      LinesUnlines(ls[1..]);
      assert [ls[0]] + ls[1..] == ls;
    }
  }

  /** A single terminated line reads back as itself. */
  lemma {:induction false} LinesOfLine(line: string)
    requires '\n' !in line
    ensures Lines(line + "\n") == [line]
    decreases |line|
  {
    if |line| > 0 {
      LinesOfLine(line[1..]);
      assert (line + "\n")[1..] == line[1..] + "\n";
      assert [line[0]] + line[1..] == line;
    }
  }

  /** Appending one terminated line to a text that ends at a line boundary adds exactly that line. */
  lemma {:induction false} LinesAppend(text: string, line: string)
    requires EndsLine(text)
    requires '\n' !in line
    ensures Lines(text + line + "\n") == Lines(text) + [line]
  {
    LinesConcat(text, line + "\n");
    LinesOfLine(line);
    assert text + line + "\n" == text + (line + "\n");
  }

  predicate IsPrefix(p: string, s: string) {
    |p| <= |s| && s[..|p|] == p
  }

  /** Python's `sub in s` on two strings: the empty string is in every string, and
      nothing longer than `s` is in it. */
  predicate Contains(s: string, sub: string): (r: bool)
    ensures |sub| == 0 ==> r
    ensures r ==> |sub| <= |s|
    decreases |s|
  {
    IsPrefix(sub, s) || (|s| > 0 && Contains(s[1..], sub))
  }

  /** `sub in s` holds exactly when `sub` starts at some position of `s`. */
  lemma {:induction false} ContainsAt(s: string, sub: string)
    ensures Contains(s, sub) <==> exists i :: 0 <= i <= |s| && IsPrefix(sub, s[i..])
    decreases |s|
  {
    assert s[0..] == s;
    if |s| > 0 {
      ContainsAt(s[1..], sub);
      if Contains(s[1..], sub) {
        var j :| 0 <= j <= |s[1..]| && IsPrefix(sub, s[1..][j..]);
        assert s[1..][j..] == s[j + 1..];
      }
      if !IsPrefix(sub, s) && exists i :: 0 <= i <= |s| && IsPrefix(sub, s[i..]) {
        var i :| 0 <= i <= |s| && IsPrefix(sub, s[i..]);
        assert i > 0;
        assert s[1..][i - 1..] == s[i..];
      }
    }
  }
}

=== FILE: writers.dfy ===
/** The `_save_dataframe`, `_save_series`, `_save_dict` and `_save_figure` helpers and
    the shape dispatch that calls them. Both `save` functions share this code
    line for line. A helper that raises keeps whatever it wrote before raising, so
    every helper returns the world it leaves behind together with its outcome. */
module Writers {
  import opened Results
  import opened Paths
  import opened Payloads

  /** The world a call leaves behind, and whether it returned or raised. */
  datatype Effect = Effect(world: World, outcome: Outcome)

  /** Opening `p` for writing the way `opener` opens it and storing `c` there; a failed
      open changes nothing. */
  function WriteFile(w: World, p: string, c: FileContent, opener: Opener): (r: Effect)
    ensures r.outcome == Opens(w, p, opener)
    ensures r.outcome.Pass? ==> r.world == Store(w, p, c)
    ensures r.outcome.Fail? ==> r.world == w
  {
    match Opens(w, p, opener)
    case Pass => Effect(Store(w, p, c), Pass)
    case Fail(e) => Effect(w, Fail(e))
  }

  /** The extension both `save` functions give the file: the format itself, except
      that pickle files end in `.p`. Two formats share an extension only when they are
      `pickle` and `p`. */
  function Extension(format: string): (r: string)
    ensures |r| > 0 <==> |format| > 0
    ensures r == "p" <==> format == "pickle" || format == "p"
    ensures r != format ==> format == "pickle"
  {
    if format == "pickle" then "p" else format
  }

  /** Two different formats that get the same extension are `pickle` and `p`. */
  lemma ExtensionCollision(f1: string, f2: string)
    requires f1 != f2 && Extension(f1) == Extension(f2)
    ensures {f1, f2} == {"pickle", "p"}
  {
  }

  /** The formats tables and series accept. */
  predicate TabularFormat(format: string) {
    format == "csv" || format == "xlsx" || format == "pickle"
  }

  /** Who opens the file a table or series is written to: pandas for csv and xlsx,
      Python's `open` for pickle. */
  function TableOpener(format: string): Opener {
    if format == "pickle" then Builtin else Pandas
  }

  /** The formats figures accept. */
  predicate ImageFormat(format: string) {
    format == "png" || format == "svg"
  }

  /** `_save_dataframe`: a csv or a one-sheet workbook without the index, or the pickled
      frame itself; any other format raises `ValueError` before anything is written. */
  function SaveFrame(w: World, f: Frame, p: string, format: string): (r: Effect)
    ensures !TabularFormat(format) ==> r == Effect(w, Fail(ValueError))
    ensures TabularFormat(format) ==> r.outcome == Opens(w, p, TableOpener(format))
    ensures r.outcome.Pass? ==> p in r.world.files && r.world.files == w.files[p := r.world.files[p]]
    ensures r.outcome.Pass? && format == "csv" ==> r.world.files[p] == CsvFile(WithoutIndex(f))
    ensures r.outcome.Pass? && format == "xlsx" ==> r.world.files[p] == ExcelFile([Sheet("Sheet1", WithoutIndex(f))])
    ensures r.outcome.Pass? && format == "pickle" ==> r.world.files[p] == PickleFile(Table(f))
  {
    if format == "csv" then WriteFile(w, p, CsvFile(WithoutIndex(f)), Pandas)
    else if format == "xlsx" then WriteFile(w, p, ExcelFile([Sheet("Sheet1", WithoutIndex(f))]), Pandas)
    else if format == "pickle" then WriteFile(w, p, PickleFile(Table(f)), Builtin)
    else Effect(w, Fail(ValueError))
  }

  /** `_save_series`: as for a frame, except that csv and xlsx hold the series as a
      one-column table (`to_frame()`), while pickle keeps the series itself. */
  function SaveSeries(w: World, s: Series, p: string, format: string): (r: Effect)
    ensures !TabularFormat(format) ==> r == Effect(w, Fail(ValueError))
    ensures TabularFormat(format) ==> r.outcome == Opens(w, p, TableOpener(format))
    ensures r.outcome.Pass? ==> p in r.world.files && r.world.files == w.files[p := r.world.files[p]]
    ensures r.outcome.Pass? && format == "csv" ==> r.world.files[p] == CsvFile(WithoutIndex(ToFrame(s)))
    ensures r.outcome.Pass? && format == "xlsx" ==> r.world.files[p] == ExcelFile([Sheet("Sheet1", WithoutIndex(ToFrame(s)))])
    ensures r.outcome.Pass? && format == "pickle" ==> r.world.files[p] == PickleFile(Column(s))
  {
    if format == "csv" then WriteFile(w, p, CsvFile(WithoutIndex(ToFrame(s))), Pandas)
    else if format == "xlsx" then WriteFile(w, p, ExcelFile([Sheet("Sheet1", WithoutIndex(ToFrame(s)))]), Pandas)
    else if format == "pickle" then WriteFile(w, p, PickleFile(Column(s)), Builtin)
    else Effect(w, Fail(ValueError))
  }

  /** `_save_figure`: `savefig` for png and svg, `ValueError` otherwise. */
  function SaveFigure(w: World, g: Figure, p: string, format: string): (r: Effect)
    ensures !ImageFormat(format) ==> r == Effect(w, Fail(ValueError))
    ensures ImageFormat(format) ==> r.outcome == Writable(w, p)
    ensures r.outcome.Pass? ==> r.world == Store(w, p, ImageFile(g, format))
  {
    if format == "png" || format == "svg" then WriteFile(w, p, ImageFile(g, format), Builtin)
    else Effect(w, Fail(ValueError))
  }

  /** The shapes a mapping value may have: a frame, a series or a nested mapping. */
  predicate Storable(v: Payload) {
    v.Table? || v.Column? || v.Mapping?
  }

  /** The check at the top of `_save_dict`: every value of this level is storable.
      Nested levels are only checked when the recursion reaches them. */
  predicate AllStorable(items: seq<Item>) {
    forall i :: 0 <= i < |items| ==> Storable(items[i].value)
  }

  /** Where `_save_dict` writes the nested mapping stored under `key`: a workbook
      named after the key, next to the outer file. */
  function NestedPath(p: string, key: string): string {
    Join(Parent(p), key + ".xlsx")
  }

  /** A key without a separator names a workbook in the outer file's directory, whose
      stem is the key when the key is not empty. */
  lemma NestedPathParts(p: string, key: string)
    requires '/' !in key
    ensures Parent(NestedPath(p, key)) == Parent(p) && Name(NestedPath(p, key)) == key + ".xlsx"
    ensures |key| > 0 ==> Stem(NestedPath(p, key)) == key && FormatOf(NestedPath(p, key)) == "xlsx"
  {
    WorkbookIn(Parent(p), key);
  }

  /** A workbook named after a key, in directory `d`. */
  lemma WorkbookIn(d: string, key: string)
    requires |d| > 0 && '/' !in key
    ensures Parent(Join(d, key + ".xlsx")) == d && Name(Join(d, key + ".xlsx")) == key + ".xlsx"
    ensures |key| > 0 ==> Stem(Join(d, key + ".xlsx")) == key && FormatOf(Join(d, key + ".xlsx")) == "xlsx"
  {
    var f := key + ".xlsx";
    assert f == key + "." + "xlsx";
    assert '/' !in "xlsx" && '.' !in "xlsx" && '/' !in ".";
    assert '/' !in f;
    JoinParts(d, f);
    if |key| > 0 {
      StemAndFormat(d, key, "xlsx");
    }
  }

  /** The sheets written so far, the world, and how the loop over the items ended. */
  datatype SheetRun = SheetRun(world: World, sheets: seq<Sheet>, outcome: Outcome)

  /** `_save_dict`: a mapping with a value of another shape raises `ValueError` before
      anything is written. Otherwise the outer workbook is opened, each frame or series
      becomes a sheet named after its key, and each nested mapping is saved, by the same
      rules, to its own workbook next to the outer one. The workbook is written when the
      `with` block closes it, after the nested workbooks, and also when a nested
      mapping raises, holding the sheets written up to that point. */
  function SaveDict(w: World, items: seq<Item>, p: string): (r: Effect)
    ensures !AllStorable(items) ==> r == Effect(w, Fail(ValueError))
    ensures AllStorable(items) && PandasWritable(w, p).Fail? ==> r == Effect(w, PandasWritable(w, p))
    ensures AllStorable(items) && Writable(w, p).Pass? ==> p in r.world.files && r.world.files[p].ExcelFile?
    ensures r.world.dirs == w.dirs && r.world.log == w.log
    decreases ItemsSize(items), 1
  {
    if !AllStorable(items) then Effect(w, Fail(ValueError))
    else match PandasWritable(w, p)
      case Fail(e) => Effect(w, Fail(e))
      case Pass =>
        var run := WriteSheets(w, items, p);
        Effect(Store(run.world, p, ExcelFile(run.sheets)), run.outcome)
  }

  /** A mapping that was saved had storable values and a target that opens. */
  lemma SaveDictOpened(w: World, items: seq<Item>, p: string)
    requires SaveDict(w, items, p).outcome.Pass?
    ensures AllStorable(items) && Writable(w, p).Pass?
  {
    assert PandasWritable(w, p).Pass?;
  }

  /** The loop over the items of one mapping: sheets in order, nested mappings saved
      as they come; the first nested failure ends the loop. */
  function WriteSheets(w: World, items: seq<Item>, p: string): (r: SheetRun)
    ensures r.world.dirs == w.dirs && r.world.log == w.log
    ensures |r.sheets| <= |items|
    decreases ItemsSize(items), 0
  {
    if |items| == 0 then SheetRun(w, [], Pass)
    else
      var item := items[0];
      assert ItemsSize(items) == Size(item.value) + ItemsSize(items[1..]);
      match item.value
      case Table(f) =>
        var rest := WriteSheets(w, items[1..], p);
        SheetRun(rest.world, [Sheet(item.key, WithoutIndex(f))] + rest.sheets, rest.outcome)
      case Column(s) =>
        var rest := WriteSheets(w, items[1..], p);
        SheetRun(rest.world, [Sheet(item.key, WithoutIndex(ToFrame(s)))] + rest.sheets, rest.outcome)
      case Mapping(nested) =>
        var e := SaveDict(w, nested, NestedPath(p, item.key));
        if e.outcome.Fail? then SheetRun(e.world, [], e.outcome)
        else WriteSheets(e.world, items[1..], p)
      case _ =>
        // an `if/elif` chain without `else`: nothing is written for this value
        WriteSheets(w, items[1..], p)
  }

  /** The sheet a table or series value becomes, under its key; nested mappings
      (and values that are never written) become none. */
  function SheetOf(item: Item): Option<Sheet> {
    match item.value
    case Table(f) => Some(Sheet(item.key, WithoutIndex(f)))
    case Column(s) => Some(Sheet(item.key, WithoutIndex(ToFrame(s))))
    case _ => None
  }

  /** The sheets, in order, of the items that become one. */
  function SheetsOf(items: seq<Item>): (r: seq<Sheet>)
    ensures |r| <= |items|
  {
    if |items| == 0 then []
    else match SheetOf(items[0])
      case Some(s) => [s] + SheetsOf(items[1..])
      case None => SheetsOf(items[1..])
  }

  /** The type dispatch of `save`: frame, series, mapping, figure; anything else
      raises `TypeError`. A mapping ignores the requested format. */
  function Dispatch(w: World, obj: Payload, p: string, format: string): (r: Effect)
    ensures obj.Other? ==> r == Effect(w, Fail(TypeError))
    ensures r.world.dirs == w.dirs && r.world.log == w.log
  {
    match obj
    case Table(f) => SaveFrame(w, f, p, format)
    case Column(s) => SaveSeries(w, s, p, format)
    case Mapping(items) => SaveDict(w, items, p)
    case Chart(g) => SaveFigure(w, g, p, format)
    case Other(_) => Effect(w, Fail(TypeError))
  }

  // ---------------------------------------------------------------------------
  // The acceptance table
  // ---------------------------------------------------------------------------

  /** The verdict `save` reaches from the shape of the payload and the format alone,
      before touching the disk: which shapes take which formats, and which error
      the others raise. A mapping takes any format, provided its values are storable. */
  function Verdict(obj: Payload, format: string): (r: Outcome)
    ensures r == Pass <==>
      || ((obj.Table? || obj.Column?) && TabularFormat(format))
      || (obj.Mapping? && AllStorable(obj.items))
      || (obj.Chart? && ImageFormat(format))
    ensures r.Fail? ==> r.error == (if obj.Other? then TypeError else ValueError)
  {
    match obj
    case Table(_) => if TabularFormat(format) then Pass else Fail(ValueError)
    case Column(_) => if TabularFormat(format) then Pass else Fail(ValueError)
    case Mapping(items) => if AllStorable(items) then Pass else Fail(ValueError)
    case Chart(_) => if ImageFormat(format) then Pass else Fail(ValueError)
    case Other(_) => Fail(TypeError)
  }

  /** How `save` opens the target for a payload of this shape and format. */
  function OpenerOf(obj: Payload, format: string): Opener {
    match obj
    case Table(_) => TableOpener(format)
    case Column(_) => TableOpener(format)
    case Mapping(_) => Pandas
    case _ => Builtin
  }

  /** Dispatch follows the table: a rejected payload raises the table's error and
      leaves the world as it was, and an accepted one whose target cannot be opened
      raises the opener's error and leaves the world as it was. A frame, series or
      figure whose target opens is written there, and nothing else changes. A mapping
      whose target opens may still fail, through one of its nested mappings. */
  lemma DispatchFollowsVerdict(w: World, obj: Payload, p: string, format: string)
    ensures Verdict(obj, format).Fail? ==> Dispatch(w, obj, p, format) == Effect(w, Verdict(obj, format))
    ensures Verdict(obj, format).Pass? && Writable(w, p).Fail? ==>
      Dispatch(w, obj, p, format) == Effect(w, Opens(w, p, OpenerOf(obj, format)))
    ensures Verdict(obj, format).Pass? && Writable(w, p).Pass? && !obj.Mapping? ==>
      var r := Dispatch(w, obj, p, format);
      r.outcome == Pass && p in r.world.files && r.world.files == w.files[p := r.world.files[p]]
  {
  }

  /** A mapping's outcome does not depend on the format it was asked for. */
  lemma MappingIgnoresFormat(w: World, items: seq<Item>, p: string, f1: string, f2: string)
    ensures Dispatch(w, Mapping(items), p, f1) == Dispatch(w, Mapping(items), p, f2)
    ensures Verdict(Mapping(items), f1) == Verdict(Mapping(items), f2)
  {
  }

  // ---------------------------------------------------------------------------
  // What `_save_dict` writes
  // ---------------------------------------------------------------------------

  /** Every file a mapping saved to `p` may write: `p` itself and, recursively, the
      workbooks of its nested mappings. */
  function Targets(items: seq<Item>, p: string): (r: set<string>)
    ensures p in r
    decreases ItemsSize(items), 1
  {
    {p} + NestedTargets(items, p)
  }

  function NestedTargets(items: seq<Item>, p: string): set<string>
    decreases ItemsSize(items), 0
  {
    if |items| == 0 then {}
    else
      assert ItemsSize(items) == Size(items[0].value) + ItemsSize(items[1..]);
      var here := if items[0].value.Mapping? then Targets(items[0].value.items, NestedPath(p, items[0].key)) else {};
      here + NestedTargets(items[1..], p)
  }

  /** From `w` to `w2` nothing changed but files in `targets`, each now a workbook;
      no file disappeared. */
  predicate WritesWorkbooksOnly(w: World, w2: World, targets: set<string>) {
    && w2.dirs == w.dirs && w2.log == w.log
    && w.files.Keys <= w2.files.Keys
    && forall q :: q in w2.files ==>
         (q in w.files && w2.files[q] == w.files[q]) || (q in targets && w2.files[q].ExcelFile?)
  }

  lemma WritesTrans(a: World, b: World, c: World, t1: set<string>, t2: set<string>, t: set<string>)
    requires WritesWorkbooksOnly(a, b, t1) && WritesWorkbooksOnly(b, c, t2)
    requires t1 <= t && t2 <= t
    ensures WritesWorkbooksOnly(a, c, t)
  {
  }

  /** Saving a mapping writes workbooks, and only at its targets. */
  lemma {:induction false} SaveDictWrites(w: World, items: seq<Item>, p: string)
    ensures WritesWorkbooksOnly(w, SaveDict(w, items, p).world, Targets(items, p))
    decreases ItemsSize(items), 1
  {
    if AllStorable(items) && Writable(w, p).Pass? {
      var run := WriteSheets(w, items, p);
      WriteSheetsWrites(w, items, p);
      WritesTrans(w, run.world, Store(run.world, p, ExcelFile(run.sheets)),
        NestedTargets(items, p), {p}, Targets(items, p));
    }
  }

  lemma {:induction false} WriteSheetsWrites(w: World, items: seq<Item>, p: string)
    ensures WritesWorkbooksOnly(w, WriteSheets(w, items, p).world, NestedTargets(items, p))
    decreases ItemsSize(items), 0
  {
    if |items| > 0 {
      var item := items[0];
      assert ItemsSize(items) == Size(item.value) + ItemsSize(items[1..]);
      var later := NestedTargets(items[1..], p);
      if item.value.Mapping? {
        var np := NestedPath(p, item.key);
        var e := SaveDict(w, item.value.items, np);
        SaveDictWrites(w, item.value.items, np);
        if e.outcome.Pass? {
          WriteSheetsWrites(e.world, items[1..], p);
          WritesTrans(w, e.world, WriteSheets(e.world, items[1..], p).world,
            Targets(item.value.items, np), later, NestedTargets(items, p));
        }
      } else {
        WriteSheetsWrites(w, items[1..], p);
      }
    }
  }

  /** A mapping saved without error has written the sibling workbook of every nested
      mapping at its top level, and the outer workbook at `p`. */
  lemma {:induction false} WriteSheetsNested(w: World, items: seq<Item>, p: string)
    requires WriteSheets(w, items, p).outcome.Pass?
    ensures forall i :: 0 <= i < |items| && items[i].value.Mapping? ==>
      NestedPath(p, items[i].key) in WriteSheets(w, items, p).world.files
    decreases |items|
  {
    if |items| > 0 {
      var item := items[0];
      var final := WriteSheets(w, items, p).world.files;
      var start := if item.value.Mapping? then SaveDict(w, item.value.items, NestedPath(p, item.key)).world else w;
      WriteSheetsTail(w, items, p);
      assert final == WriteSheets(start, items[1..], p).world.files;
      WriteSheetsNested(start, items[1..], p);
      if item.value.Mapping? {
        WriteSheetsWrites(start, items[1..], p);
      }
      forall i | 1 <= i < |items| && items[i].value.Mapping?
        ensures NestedPath(p, items[i].key) in final
      {
        assert items[1..][i - 1] == items[i];
      }
    }
  }

  /** One step of the loop that went on after the first item: the rest of the loop
      runs from the world the first item left, and a nested first item was written. */
  lemma WriteSheetsTail(w: World, items: seq<Item>, p: string)
    requires |items| > 0 && WriteSheets(w, items, p).outcome.Pass?
    ensures var item := items[0];
      var start := if item.value.Mapping? then SaveDict(w, item.value.items, NestedPath(p, item.key)).world else w;
      && WriteSheets(start, items[1..], p).world == WriteSheets(w, items, p).world
      && WriteSheets(start, items[1..], p).outcome.Pass?
      && (item.value.Mapping? ==> NestedPath(p, item.key) in start.files)
  {
  }

  /** The loop's sheets are always a prefix of the full sheet list, and all of it
      when no nested mapping failed. */
  lemma {:induction false} WriteSheetsSheets(w: World, items: seq<Item>, p: string)
    ensures WriteSheets(w, items, p).sheets <= SheetsOf(items)
    ensures WriteSheets(w, items, p).outcome.Pass? ==> WriteSheets(w, items, p).sheets == SheetsOf(items)
    decreases |items|
  {
    if |items| > 0 {
      var item := items[0];
      match item.value
      case Mapping(nested) =>
        var e := SaveDict(w, nested, NestedPath(p, item.key));
        if e.outcome.Pass? {
          WriteSheetsSheets(e.world, items[1..], p);
        }
      case _ =>
        WriteSheetsSheets(w, items[1..], p);
    }
  }

  /** `_save_dict` end to end: an accepted, writable mapping leaves a workbook at `p`
      holding a prefix of the sheets of its tables and series, all of them on success;
      on success every nested mapping also has its sibling workbook. */
  lemma SaveDictResult(w: World, items: seq<Item>, p: string)
    requires AllStorable(items) && Writable(w, p).Pass?
    ensures var r := SaveDict(w, items, p);
      p in r.world.files && r.world.files[p].ExcelFile? && r.world.files[p].sheets <= SheetsOf(items)
    ensures var r := SaveDict(w, items, p);
      r.outcome.Pass? ==> r.world.files[p] == ExcelFile(SheetsOf(items))
    ensures var r := SaveDict(w, items, p);
      r.outcome.Pass? ==> forall i :: 0 <= i < |items| && items[i].value.Mapping? ==>
        NestedPath(p, items[i].key) in r.world.files
  {
    WriteSheetsSheets(w, items, p);
    if SaveDict(w, items, p).outcome.Pass? {
      WriteSheetsNested(w, items, p);
    }
  }

  /** Every item becomes a sheet exactly when none of them is a nested mapping or a
      value that is never written. */
  lemma {:induction false} SheetsOfAll(items: seq<Item>)
    ensures |SheetsOf(items)| == |items| <==> forall i :: 0 <= i < |items| ==> SheetOf(items[i]).Some?
    decreases |items|
  {
    if |items| > 0 {
      SheetsOfAll(items[1..]);
      if forall i :: 0 <= i < |items| ==> SheetOf(items[i]).Some? {
        forall i | 0 <= i < |items[1..]| ensures SheetOf(items[1..][i]).Some? {
          assert items[1..][i] == items[i + 1];
        }
      }
      if |SheetsOf(items)| == |items| {
        assert SheetOf(items[0]).Some?;
        forall i | 0 < i < |items| ensures SheetOf(items[i]).Some? {
          assert items[i] == items[1..][i - 1];
        }
      }
    }
  }

  /** The outer workbook holds exactly the sheets of the table and series values: a
      sheet is there if and only if some item becomes it. */
  lemma {:induction false} SheetsOfMembers(items: seq<Item>)
    ensures forall s :: s in SheetsOf(items) <==> exists i :: 0 <= i < |items| && SheetOf(items[i]) == Some(s)
    decreases |items|
  {
    if |items| > 0 {
      SheetsOfMembers(items[1..]);
      forall s
        ensures s in SheetsOf(items) <==> exists i :: 0 <= i < |items| && SheetOf(items[i]) == Some(s)
      {
        if s in SheetsOf(items) {
          if SheetOf(items[0]) != Some(s) {
            var i :| 0 <= i < |items[1..]| && SheetOf(items[1..][i]) == Some(s);
            assert SheetOf(items[i + 1]) == Some(s);
          }
        }
        if exists i :: 0 <= i < |items| && SheetOf(items[i]) == Some(s) {
          var i :| 0 <= i < |items| && SheetOf(items[i]) == Some(s);
          if i > 0 {
            assert SheetOf(items[1..][i - 1]) == Some(s);
          }
        }
      }
    }
  }

  // ---------------------------------------------------------------------------
  // The log is not touched
  // ---------------------------------------------------------------------------

  /** The helpers neither read nor write the log: run with any other log text they
      do the same and leave that text alone. */
  lemma DispatchLogFree(w: World, obj: Payload, p: string, format: string, log: Option<string>)
    ensures Dispatch(w.(log := log), obj, p, format) ==
      Effect(Dispatch(w, obj, p, format).world.(log := log), Dispatch(w, obj, p, format).outcome)
  {
    if obj.Mapping? {
      SaveDictLogFree(w, obj.items, p, log);
    }
  }

  lemma {:induction false} SaveDictLogFree(w: World, items: seq<Item>, p: string, log: Option<string>)
    ensures SaveDict(w.(log := log), items, p) ==
      Effect(SaveDict(w, items, p).world.(log := log), SaveDict(w, items, p).outcome)
    decreases ItemsSize(items), 1
  {
    if AllStorable(items) && Writable(w, p).Pass? {
      WriteSheetsLogFree(w, items, p, log);
    }
  }

  lemma {:induction false} WriteSheetsLogFree(w: World, items: seq<Item>, p: string, log: Option<string>)
    ensures WriteSheets(w.(log := log), items, p) ==
      var r := WriteSheets(w, items, p); SheetRun(r.world.(log := log), r.sheets, r.outcome)
    decreases ItemsSize(items), 0
  {
    if |items| > 0 {
      var item := items[0];
      assert ItemsSize(items) == Size(item.value) + ItemsSize(items[1..]);
      if item.value.Mapping? {
        var np := NestedPath(p, item.key);
        SaveDictLogFree(w, item.value.items, np, log);
        var e := SaveDict(w, item.value.items, np);
        if e.outcome.Pass? {
          WriteSheetsLogFree(e.world, items[1..], p, log);
          assert e.world.(log := log) == SaveDict(w.(log := log), item.value.items, np).world;
        }
      } else {
        WriteSheetsLogFree(w, items[1..], p, log);
      }
    }
  }
}
